=== FILE: README.md ===
# Conservatory programming dashboard — a Dafny model

The dashboard (`app.py`) reads one long-form CSV of concert performances,
finds its columns by keyword, and lets a user narrow the table with a
sidebar. The sidebar has academic-year, semester and performance-type
checkboxes, plus composer and performer dropdowns. It then shows the
narrowed table sorted for reading, along with the following:

- composer-demographic gauges: gender, ethnicity, group and vital status;
- a group-by-status cross-tab;
- headline counts;
- a one-line summary of the active filters.

This project models the pure engine behind that page. The modules are:

- `Text`: the string helpers. These are substring tests, ASCII `strip` and
  `lower`, the ", " join and its splitting inverse, and code-point string
  order.
- `Columns`: header normalisation, keyword column detection, the
  composer-name rule, and the `Bindings` record of which physical column
  serves each logical field.
- `Records`: a typed table row. A missing cell is `None`, which stands for
  pandas' NaN. This module also has the calendar date and its `date_clean`
  display string, with a reader for that string.
- `Seqs`: boolean-mask selection (`Where`), counting, de-duplication and
  subsequences.
- `Filters`: the mask builder. Academic year OR semester, AND performance
  type, then exact-match composer and performer stages.
- `Ordering` and `Sorting`: the pandas multi-column order, with NaN last.
  The three sort branches are written as one stable sort over a per-branch
  key.
- `Demographics`: the gauge counts and the 4 × 2 cross-tab.
- `Session`: the sidebar state as a key-value store. It covers the
  "Clear All Filters" callback and the rule that academic-year and semester
  boxes disable each other.
- `Summary`: the filter-summary strings.
- `Metrics`: the Distinct Works and Distinct Performers counts and the
  details table's columns and headers.
- `Dashboard`: the pipeline from session to query to filter to sorted view,
  and which parts of the page one run of the script renders.

## Model

| member | source | states |
|---|---|---|
| Columns.NormalizeHeaders | app.py:43-48 | after the legacy "Year" and "Composer dates" columns are dropped, every remaining header is stripped and lower-cased, and there are never more headers than before |
| Columns.NormalizeHeadersAppend | app.py:43-48 | normalisation works column by column in table order: the header row of a concatenation is the concatenation of the header rows |
| Columns.NormalizeHeadersOne | app.py:43-48 | a single column yields nothing when it is "Year" or "Composer dates" and otherwise exactly its stripped, lower-cased name |
| Columns.NormalizeHeadersMembers | app.py:43-48 | a name is in the normalised header row exactly when some column other than the two dropped ones normalises to it |
| Columns.NormalizeHeadersEmpty | app.py:43-48 | the normalised header row is empty exactly when every column was one of the two dropped ones |
| Columns.NormalizeNameIdempotent | app.py:48 | normalising an already normalised name leaves it unchanged |
| Text.StripSpec | app.py:48 | `strip` leaves no whitespace at either end and does not change a string that has none |
| Columns.DetectColumn | app.py:57-61 | the result is None exactly when no column contains every keyword; otherwise it is the first such column in table order |
| Columns.DetectColumnSound | app.py:57-61 | a detected column is one of the table's columns and contains every keyword |
| Columns.ComposerColumn | app.py:76-79 | the composer-name column is the first column mentioning "composer" and none of "category", "status", "gen"; it is None exactly when no column qualifies |
| Columns.ComposerCategoryNeverChosen | app.py:76-79 | with "composer category" before "composer", the composer rule picks "composer" while plain keyword detection would pick "composer category" |
| Columns.Resolve | app.py:63-92 | each logical field is bound to the first column containing its keyword(s) ("semester"; "academic" and "year"; "concert"; "index"; "performer"; "performance type"; "performer type"; "instrument"; "piece"; "date"; "composer category"; "composer status"), or unbound when none does; the composer field follows the composer-name rule |
| Records.FormatDate | app.py:83-88 | a missing date displays as the empty string and only a missing one does; a present date has the shape "Mon. D, YYYY" with the day unpadded (never a leading zero) |
| Records.PaddedDayRejected | app.py:86 | a zero-padded day such as "Jan. 05, 2025" is not a display date, since the day is written with `str`, which never pads |
| Records.ParseFormatDate | app.py:83-88 | every display date reads back as the date it came from, so distinct dates never share a display string |
| Records.FormatDateExample | app.py:84-87 | 5 January 2025 displays as "Jan. 5, 2025" |
| Filters.FilterRows | app.py:189-226 | the filtered table is an order-preserving subsequence of the input holding exactly the rows that pass the year-or-semester mask, the type mask and both dropdown stages |
| Filters.StagesAreConjunction | app.py:205-226 | applying the combined mask, then the composer stage, then the performer stage keeps exactly the rows satisfying all of them together |
| Filters.FilterAppend | app.py:189-226 | filtering is row by row: filtering a concatenation concatenates the filtered parts |
| Filters.YearUnboundIgnoresSemesters | app.py:191-205 | without an academic-year column the year mask is all-true, so the semester selection has no effect |
| Filters.EmptyYearAndSemesterExcludeAll | app.py:191-205 | with both the year and semester columns bound and nothing selected in either, no row passes |
| Filters.UnboundColumnsShowAll | app.py:191-226 | with neither column bound, no type selected and both dropdowns at "All", every row is shown in its original order |
| Filters.EmptyTypeSelectionIsNoFilter | app.py:207-215 | an empty type selection, or a missing type column, filters exactly as if there were no type filter |
| Filters.AllTypesLikeNoTypes | app.py:207-215 | selecting every type that occurs filters like selecting none, provided no row's type is missing |
| Filters.SelectedYearPassesAnySemester | app.py:191-205 | a row of a selected academic year passes the year-or-semester mask whatever its semester |
| Sorting.SeasonRankSpec | app.py:232-233 | the season code is 0 for a label mentioning only "Fall", 1 for one mentioning only "Spring", missing for one with neither, and given only when its word occurs; a label mentioning either word always has a code |
| Sorting.FallFirstRanksFall | app.py:232-233 | the leftmost match decides: a label where "Fall" starts before any "Spring" ranks 0 |
| Sorting.SpringFirstRanksSpring | app.py:232-233 | a label where "Spring" starts before any "Fall" ranks 1 |
| Sorting.StableSortSpec | app.py:240-256 | the sort is ordered by its key, is a permutation of the input, and keeps rows with equal keys in input order |
| Sorting.SortRows | app.py:228-256 | the sorted table is a permutation of the filtered one, ordered by the applicable branch's key, stable on ties; with no sort branch applicable it is unchanged |
| Sorting.FallBeforeSpring | app.py:229-242 | within one academic year a Fall row never comes after a Spring row |
| Sorting.YearsAscend | app.py:240-242 | academic years come out in ascending text order with missing years last |
| Sorting.DisplayDateOrderIsTextual | app.py:245-256 | the date branches order by display text: a missing date ("") first, and "Apr. 1, 2024" before "Dec. 1, 2023" |
| Sorting.TextualDateSortMisorders | app.py:253-256 | sorting a December 2023 row and an April 2024 row by date puts the 2024 row first, although the 2023 date is earlier |
| Sorting.IntendedSortRows | app.py:228-256 | with the date branches keyed on the parsed date, the sorted table is a permutation of the input, ordered by the key and stable on ties |
| Sorting.IntendedDatesChronological | app.py:245-256 | under the intended key, dated rows come out in calendar order and undated rows after every dated one |
| Sorting.IntendedDateSortOrders | app.py:253-256 | under the intended key the December 2023 row comes before the April 2024 row |
| Records.DayNumberOrder | app.py:83-88 | comparing YYYYMMDD day numbers is comparing calendar dates, and equal day numbers mean equal dates |
| Ordering.KeyLtTransitive | app.py:240-242 | the multi-column order is transitive |
| Ordering.KeyLtTrichotomy | app.py:240-242 | any two distinct keys are ordered one way or the other |
| Demographics.Tally | app.py:259-287 | total equals the row count; male, female and NB add up to the total; NB is never negative and counts exactly the rows without a recognised code (all rows when the column is unbound); the ethnicity split and the four groups each add up to male plus female; living plus deceased never exceeds the total |
| Demographics.CategoryConservation | app.py:265-282 | the gender split, the ethnicity split and the four groups each partition the recognised codes, which together with the unrecognised rows cover the table |
| Demographics.TallyPermutation | app.py:259-287 | the tallies depend only on which rows are present, not on their order |
| Demographics.TallyEmpty | app.py:259-287 | an empty table has every count zero |
| Demographics.TallyAppend | app.py:259-287 | adding one row adds 1 to the total and 1 to exactly the counts of its category code (Male for 1 and 3, Female for 2 and 4, NB otherwise or when unbound; White for 1 and 2, BBIA for 3 and 4; its own group) and of its status code (Living for 1, Deceased for 2), and nothing else |
| Demographics.BbiaLivingManTally | app.py:265-287 | a single living BBIA man is counted as total, Male, BBIA, BBIA Men and Living, and nowhere else |
| Demographics.Cells | app.py:325-332 | the cross-tab holds eight cells, groups outermost in the fixed order and Living before Deceased; cell k counts the rows whose category code (missing read as 0) is group k/2+1 and whose status code is k%2+1 |
| Demographics.CrossTab | app.py:325-332 | the cross-tab is produced exactly when both code columns are bound; it is then the eight cells of the table, whose counts never exceed the row count |
| Demographics.CellsSum | app.py:325-332 | the eight counts add up to the number of rows with a group code 1-4 and a status code 1-2 |
| Demographics.CellsAppend | app.py:325-332 | adding one row adds 1 to the cell of its group and status when it is fully coded, and leaves every other cell, and every cell for an uncoded row, unchanged |
| Demographics.CellsPermutation | app.py:325-332 | the cross-tab counts depend only on which rows are present, not on their order |
| Demographics.BbiaLivingManCell | app.py:325-332 | adding a living BBIA man to any table raises the "BBIA Men"/"Living" cell by one and leaves the other seven unchanged |
| Session.Selected | app.py:120-150 | the selected options are those whose checkbox is checked, in option order |
| Session.ClearAllFilters | app.py:99-106 | the keys stay the same; every "AY_" and "Sem_" box becomes unchecked; a "Performance Type" entry becomes empty; every other key keeps its value |
| Session.ClearAllUnselects | app.py:99-106 | after clearing, no academic year and no semester is selected, whatever the options |
| Session.ClearAllIdempotent | app.py:99-106 | clearing twice is clearing once |
| Session.ClearAllKeepsTypeBoxes | app.py:99-106 | example: a session with only "PT_Recital" checked still has "Recital" selected after clearing |
| Session.ClearAllKeepsTypeSelection | app.py:99-106 | for every session and every option list, clearing leaves the selected performance types unchanged |
| Session.ClearAllFiltersIntended | app.py:99-106 | the corrected callback keeps the keys, unchecks every "AY_", "Sem_" and "PT_" box, empties a "Performance Type" entry and leaves every other key alone |
| Session.IntendedClearUnselects | app.py:99-106 | after the corrected clear, no year, semester or type is selected |
| Session.ClickKeepsExclusive | app.py:113-138 | because each group's boxes are disabled while the other group has a selection, no click makes both academic years and semesters selected at once |
| Session.ClearAllExclusive | app.py:99-106 | after clearing, academic years and semesters are not both selected |
| Summary.SummaryValue | app.py:174-176 | no selection shows "N/A"; otherwise the shown text starts with the first label, contains every label, is the label itself for one label, is never "N/A" unless the only label is "N/A", and splits back into exactly the selected labels when no label contains a comma |
| Text.JoinLabels | app.py:174-176 | the ", "-joined text starts with the first label, has a comma right after it when there are more, and contains every label |
| Summary.SummaryNAIffNothingSelected | app.py:174-176 | for comma-free labels other than "N/A", the summary reads "N/A" exactly when nothing is selected |
| Summary.ChoiceValue | app.py:177-178 | a dropdown choice shows as "N/A" exactly when it is empty, "All" or "N/A", and otherwise shows as itself |
| Dashboard.ShownComposerNarrowsView | app.py:177-222 | a composer choice the summary shows, meaning anything but "N/A", restricts every shown row to that composer |
| Dashboard.ShownPerformerNarrowsView | app.py:178-226 | a performer choice the summary shows restricts every shown row to that performer |
| Metrics.DistinctWorks | app.py:451-458 | with piece and composer columns it is the number of distinct (composer, piece) pairs, missing cells included, positive exactly when there are rows; with only a piece column it is the number of distinct present pieces; it is "N/A" exactly without a piece column; it never exceeds the row count |
| Metrics.DistinctPresent | app.py:451-464 | counting distinct present values counts the set of non-missing values, never more than the cells |
| Metrics.DistinctCountsPermutation | app.py:451-464 | the distinct counts depend only on which rows are present, not on their order |
| Metrics.DistinctPerformers | app.py:460-464 | the number of distinct present performer names, "N/A" exactly without a performer column; never more than the rows |
| Metrics.SlotsAreBoundLabels | app.py:469-476 | the shown labels are an order-preserving subsequence of the six labels Semester, Date, Performer, Instrument, Composer, Piece; which ones are kept is stated by ShownIffBound |
| Metrics.ShownIffBound | app.py:469-476 | a label is shown exactly when its field is bound |
| Metrics.RenameMapLookup | app.py:470-478 | when the shown columns are distinct, the rename map sends each column to its own label |
| Metrics.DistinctColumnsKeepLabels | app.py:469-478 | when the shown columns are distinct, the table header is the bound labels in the fixed order |
| Metrics.AllBoundHeaders | app.py:469-478 | with all six fields bound to distinct columns, the header reads Semester, Date, Performer, Instrument, Composer, Piece |
| Dashboard.QueryOf | app.py:110-167 | each selection list is empty when its column is unbound and otherwise holds exactly the options whose box is checked, in option order; the dropdown choices are passed through |
| Dashboard.View | app.py:189-256 | the displayed table holds exactly the input rows passing every filter, with their multiplicities, sorted by the applicable key, rows with equal keys in filtered order |
| Dashboard.ViewTallies | app.py:228-287 | sorting for display does not change any gauge |
| Dashboard.FreshSessionShowsNothing | app.py:110-205 | with both year and semester columns present, an untouched sidebar shows no rows |
| Dashboard.ClearAllShowsNothing | app.py:99-205 | "Clear All Filters" with both year and semester columns present empties the view |
| Dashboard.CheckedYearIsShown | app.py:110-226 | a row of a checked academic year is shown when no type is checked and both dropdowns are at "All" |
| Dashboard.ClearAllStillFiltersTypes | app.py:99-150 | with the callback as written, a row of another type stays hidden after "Clear All Filters" because the type box stays checked |
| Dashboard.IntendedClearShowsAll | app.py:99-215 | with the corrected callback and no semester column, clearing shows every row again, in sorted order, whatever the academic-year, semester and type options |
| Dashboard.Render | app.py:259-500 | the gauges always show the tallies of the filtered rows; the cross-tab and the main panel appear exactly when both code columns are bound; the panel then shows the sorted view, the filtered row count, the distinct counts of the filtered rows and the table header |
| Dashboard.RenderIntended | app.py:325-500 | with the cross-tab guarded, the main panel always renders and shows the sorted view, the filtered row count, the distinct counts of the filtered rows and the table header; the cross-tab appears exactly when both code columns are bound and is then the cells of the filtered rows; wherever the page as written renders, the two agree |
| Dashboard.MissingCategoryHidesTable | app.py:325-330 | as written, without a composer-category column a row the filters keep is not shown, because the run stops before the table; with the guard it is shown |

Notes on how the model reads the code:

- The cross-tab (app.py:329-330) indexes `filtered[col_comp_gen]` and
  `filtered[col_comp_status]` without checking that the columns exist. When
  either is unbound, the key error stops the whole script. The gauges
  (app.py:290-317) have already rendered by then, but the cross-tab, the
  later charts and the main panel (app.py:443-500) never do.
  `Dashboard.Render` models this: its main panel is `None` exactly then.
  `Dashboard.RenderIntended` is the guarded version.
- Both date sort branches use the display column `date_clean` as their key.
  That column is text in the form "Mon. D, YYYY", with "" for a missing
  date. The order is therefore alphabetical by month abbreviation, not
  chronological, as `Sorting.DisplayDateOrderIsTextual` shows. The rest of
  the model uses this as-written order; `Sorting.IntendedSortRows` is the
  chronological version.
- A missing cell never passes an `isin` test. That is why
  `Filters.AllTypesLikeNoTypes` needs every type to be present.

## Left out

- The companion `AI_detect.py` script is not part of this model. It makes
  network calls to a language-model service and does file I/O.
- Page rendering is left out. This covers Streamlit widgets, HTML/CSS,
  Altair charts, the logo, the CSV download button and the summary's HTML
  markup. Only the values they display are modelled.
- CSV reading (`pd.read_csv`) is left out. The model starts from typed
  rows and a header list.
- Cell typing is left out. `pd.to_datetime(errors='coerce')`,
  `pd.to_numeric` and the `astype(int)` of the code columns are assumed
  already done. Dates are `Option<CalendarDate>`, and index, concert and
  codes are `Option<int>`. The `try/except` around `pd.to_numeric`, which
  falls back to text order, is not modelled.
- Records.FormatDate: only years 1000-9999 are modelled, so that `%Y` is
  four digits. pandas timestamps lie in 1677-2262 anyway.
- Text.StripSpec: only ASCII whitespace and ASCII upper-case letters are
  handled. Python's Unicode `strip` and `lower` are wider.
- Sorting.SortRows: the last branch (`sort_values(by=[col_date])`) uses
  pandas' default quicksort, which is not stable. The model returns the
  stable order, which is one of the orders that sort may produce. The
  multi-column branches are stable in pandas too.
- Demographics.Tally: the gauges' percentages (`count/total`, rounded to
  whole percent) are floating point and are not modelled; the counts
  behind them are.
- Dashboard.QueryOf: the option lists, which are the sorted distinct values
  of each column, are parameters. Their order affects only the order of the
  selection list and summary, never which rows pass.
- Streamlit's widget life cycle is not modelled. Callbacks run before the
  next rerun and widget values persist in session state; the model treats a
  click or the clear callback as a function on the state, followed by a
  fresh read of all boxes.
- Dashboard.View, Metrics.DistinctWorks, Metrics.DistinctPerformers,
  Metrics.DisplayHeaders: these are computed for any bindings, including
  ones with a code column missing. There the page as written never shows
  them; only `Dashboard.Render`, whose main panel is then `None`, states
  what actually appears.
- The `@st.cache_data` caching of the loaded table is left out.

## Findings

| source | as written | input that shows it | evidently intended | confidence | as-written member | corrected member |
|---|---|---|---|---|---|---|
| app.py:99-106 | "Clear All Filters" unchecks keys starting "AY_" or "Sem_" and empties a key named "Performance Type". The type filter, however, is a set of checkboxes stored under "PT_" keys (app.py:148-150), which the callback never visits. | A session with "PT_Recital" checked: after the callback the "Recital" box is still checked, so rows of other types stay hidden. | The callback also unchecks every "PT_" box, as its comment on clearing the performance-type filter says. | not executed | Dashboard.ClearAllStillFiltersTypes | Dashboard.IntendedClearShowsAll |
| app.py:245-256 | Both date branches sort on `date_clean`, the display text "Mon. D, YYYY", so rows are ordered by month abbreviation, then day text, then year. | A row dated 1 December 2023 and one dated 1 April 2024: "Apr. 1, 2024" sorts before "Dec. 1, 2023". A missing date ("") also sorts first, not last. | Sort on the parsed date, which pandas orders chronologically with missing dates last. | not executed | Sorting.TextualDateSortMisorders | Sorting.IntendedDatesChronological |
| app.py:325-332 | The cross-tab reads the category and status columns without checking that they were found. | A CSV with no "composer category" column: `filtered[None]` raises a key error, and the run stops before the main panel. | Skip the cross-tab when either column is missing, as the gauges do, and render the rest of the page. | not executed | Dashboard.MissingCategoryHidesTable | Dashboard.RenderIntended |

=== FILE: columns.dfy ===
/** Loading-time column handling of the dashboard (app.py:40-92): header
    normalisation, keyword-based column detection, the special rule for
    the composer-name column, and the resulting binding of every logical
    field to a physical column or to nothing. */
module Columns {
  import opened Wrappers
  import opened Text

  // ---------------------------------------------------------------------
  // Header normalisation
  // ---------------------------------------------------------------------

  /** Columns dropped by exact name before the headers are normalised. */
  predicate IsDropped(c: string) {
    c == "Year" || c == "Composer dates"
  }

  /** A header as the table keeps it: surrounding whitespace removed, then
      lower-cased. */
  function NormalizeName(c: string): string {
    Lower(Strip(c))
  }

  predicate IsNormalized(c: string) {
    NormalizeName(c) == c
  }

  /** Normalising a name that is already normalised changes nothing. */
  lemma NormalizeNameIdempotent(c: string)
    ensures IsNormalized(NormalizeName(c))
  {
    var s := Strip(c);
    StripSpec(c);
    LowerKeepsStripped(s);
    StripSpec(Lower(s));
    LowerIdempotent(s);
  }

  /** The header row after the two legacy columns are dropped and every
      remaining name is stripped and lower-cased, in the original order. */
  function NormalizeHeaders(cols: seq<string>): (r: seq<string>)
    ensures |r| <= |cols|
    ensures forall i :: 0 <= i < |r| ==> IsNormalized(r[i])
  {
    if |cols| == 0 then []
    else
      var rest := NormalizeHeaders(cols[1..]);
      if IsDropped(cols[0]) then rest
      else
        NormalizeNameIdempotent(cols[0]);
        [NormalizeName(cols[0])] + rest
  }

  /** A name survives normalisation exactly when some column that is not
      dropped normalises to it. */
  lemma {:induction false} NormalizeHeadersMembers(cols: seq<string>, x: string)
    ensures x in NormalizeHeaders(cols) <==>
            exists i :: 0 <= i < |cols| && !IsDropped(cols[i]) && NormalizeName(cols[i]) == x
  {
    if |cols| > 0 {
      NormalizeHeadersMembers(cols[1..], x);
      if exists i :: 0 <= i < |cols[1..]| && !IsDropped(cols[1..][i]) && NormalizeName(cols[1..][i]) == x {
        var i :| 0 <= i < |cols[1..]| && !IsDropped(cols[1..][i]) && NormalizeName(cols[1..][i]) == x;
        assert cols[i + 1] == cols[1..][i];
      }
      if exists i :: 0 <= i < |cols| && !IsDropped(cols[i]) && NormalizeName(cols[i]) == x {
        var i :| 0 <= i < |cols| && !IsDropped(cols[i]) && NormalizeName(cols[i]) == x;
        if i > 0 {
          assert cols[1..][i - 1] == cols[i];
        }
      }
    }
  }

  /** Normalisation works column by column and keeps table order: the
      headers of a concatenation are the headers of each part, in turn. */
  lemma {:induction false} NormalizeHeadersAppend(a: seq<string>, b: seq<string>)
    ensures NormalizeHeaders(a + b) == NormalizeHeaders(a) + NormalizeHeaders(b)
  {
    if |a| == 0 {
      assert a + b == b;
    } else {
      assert (a + b)[0] == a[0];
      assert (a + b)[1..] == a[1..] + b;
      NormalizeHeadersAppend(a[1..], b);
    }
  }

  /** A single column yields its own normalised name, or nothing when it
      is one of the two dropped columns. */
  lemma NormalizeHeadersOne(c: string)
    ensures IsDropped(c) ==> NormalizeHeaders([c]) == []
    ensures !IsDropped(c) ==> NormalizeHeaders([c]) == [NormalizeName(c)]
  {
    assert [c][1..] == [];
  }

  /** Normalisation leaves no header exactly when every column is one of
      the two dropped ones. */
  lemma NormalizeHeadersEmpty(cols: seq<string>)
    ensures |NormalizeHeaders(cols)| == 0 <==> forall i :: 0 <= i < |cols| ==> IsDropped(cols[i])
  {
    if |cols| > 0 {
      var r := NormalizeHeaders(cols);
      if |r| == 0 {
        forall i | 0 <= i < |cols|
          ensures IsDropped(cols[i])
        {
          if !IsDropped(cols[i]) {
            NormalizeHeadersMembers(cols, NormalizeName(cols[i]));
          }
        }
      } else {
        NormalizeHeadersMembers(cols, r[0]);
      }
    }
  }

  // ---------------------------------------------------------------------
  // Column detection
  // ---------------------------------------------------------------------

  /** Column `i` is the first, in table order, to contain every keyword. */
  predicate FirstMatching(cols: seq<string>, keywords: seq<string>, i: int) {
    && 0 <= i < |cols|
    && ContainsAll(cols[i], keywords)
    && forall j :: 0 <= j < i ==> !ContainsAll(cols[j], keywords)
  }

  /** Keyword detection: the first column whose name contains
      every keyword as a substring, or None. */
  function DetectColumn(cols: seq<string>, keywords: seq<string>): (r: Option<string>)
    ensures r.None? <==> forall i :: 0 <= i < |cols| ==> !ContainsAll(cols[i], keywords)
    ensures forall i :: FirstMatching(cols, keywords, i) ==> r == Some(cols[i])
  {
    if |cols| == 0 then None
    else if ContainsAll(cols[0], keywords) then Some(cols[0])
    else
      var r := DetectColumn(cols[1..], keywords);
      assert forall i :: FirstMatching(cols, keywords, i) ==> FirstMatching(cols[1..], keywords, i - 1);
      r
  }

  /** A detected column exists in the table and contains every keyword. */
  lemma DetectColumnSound(cols: seq<string>, keywords: seq<string>)
    ensures DetectColumn(cols, keywords).Some? ==>
            DetectColumn(cols, keywords).value in cols &&
            ContainsAll(DetectColumn(cols, keywords).value, keywords)
  {
    var r := DetectColumn(cols, keywords);
    if r.Some? {
      var i := FirstIndex(cols, keywords);
      assert FirstMatching(cols, keywords, i);
    }
  }

  /** The position of the first column that contains every keyword. */
  function FirstIndex(cols: seq<string>, keywords: seq<string>): (i: nat)
    requires exists k :: 0 <= k < |cols| && ContainsAll(cols[k], keywords)
    ensures FirstMatching(cols, keywords, i)
  {
    if ContainsAll(cols[0], keywords) then 0
    else
      assert exists k :: 0 <= k < |cols[1..]| && ContainsAll(cols[1..][k], keywords) by {
        var k :| 0 <= k < |cols| && ContainsAll(cols[k], keywords);
        assert cols[1..][k - 1] == cols[k];
      }
      1 + FirstIndex(cols[1..], keywords)
  }

  /** The composer-name rule: mentions "composer" but none of "category",
      "status" or "gen". */
  predicate IsComposerName(c: string) {
    Contains(c, "composer") && !Contains(c, "category") && !Contains(c, "status") && !Contains(c, "gen")
  }

  /** Column `i` is the first, in table order, satisfying `IsComposerName`. */
  predicate FirstComposer(cols: seq<string>, i: int) {
    && 0 <= i < |cols|
    && IsComposerName(cols[i])
    && forall j :: 0 <= j < i ==> !IsComposerName(cols[j])
  }

  /** The composer-name column: the first column satisfying `IsComposerName`. */
  function ComposerColumn(cols: seq<string>): (r: Option<string>)
    ensures r.None? <==> forall i :: 0 <= i < |cols| ==> !IsComposerName(cols[i])
    ensures r.Some? ==> r.value in cols && IsComposerName(r.value)
    ensures forall i :: FirstComposer(cols, i) ==> r == Some(cols[i])
  {
    if |cols| == 0 then None
    else if IsComposerName(cols[0]) then Some(cols[0])
    else
      var r := ComposerColumn(cols[1..]);
      assert forall i :: FirstComposer(cols, i) ==> FirstComposer(cols[1..], i - 1);
      r
  }

  /** A column whose name mentions "category" is never taken as the
      composer name, whereas plain keyword detection for "composer" takes it
      when it comes first. */
  lemma {:induction false} ComposerCategoryNeverChosen()
    ensures ComposerColumn(["composer category", "composer"]) == Some("composer")
    ensures DetectColumn(["composer category", "composer"], ["composer"]) == Some("composer category")
  {
    CategoryIsNotComposerName();
    PlainIsComposerName();
    var cols := ["composer category", "composer"];
    assert cols[1..] == ["composer"];
    assert ContainsAll("composer category", ["composer"]) by {
      assert "composer" <= "composer category";
    }
  }

  lemma CategoryIsNotComposerName()
    ensures !IsComposerName("composer category")
  {
    assert "category" <= "composer category"[9..];
    ContainsIffOccurs("composer category", "category");
    assert OccursAt("composer category", "category", 9);
  }

  lemma PlainIsComposerName()
    ensures IsComposerName("composer")
  {
    assert "composer" <= "composer";
    assert !Contains("composer", "category") by {
      ContainsIffOccurs("composer", "category");
      assert "composer"[1] != "category"[1];
    }
    assert !Contains("composer", "status") by { NoStatusInComposer(); }
    assert !Contains("composer", "gen") by { NoGenInComposer(); }
  }

  lemma NoStatusInComposer()
    ensures !Contains("composer", "status")
  {
    ContainsIffOccurs("composer", "status");
    forall i | 0 <= i <= 2
      ensures !OccursAt("composer", "status", i)
    {
      assert "composer"[i..i + 6][0] == "composer"[i] != 's';
    }
  }

  lemma NoGenInComposer()
    ensures !Contains("composer", "gen")
  {
    ContainsIffOccurs("composer", "gen");
    forall i | 0 <= i <= 5
      ensures !OccursAt("composer", "gen", i)
    {
      assert "composer"[i..i + 3][0] == "composer"[i] != 'g';
    }
  }

  // ---------------------------------------------------------------------
  // Bindings
  // ---------------------------------------------------------------------

  /** The physical column bound to each logical field, or None. `date`
      is the free-form date column from which the display dates are made. */
  datatype Bindings = Bindings(
    semester: Option<string>,
    academicYear: Option<string>,
    concert: Option<string>,
    index: Option<string>,
    performer: Option<string>,
    performanceType: Option<string>,
    performerType: Option<string>,
    instrument: Option<string>,
    composer: Option<string>,
    piece: Option<string>,
    date: Option<string>,
    category: Option<string>,
    status: Option<string>)

  /** The field is unbound or bound to a column of `cols` containing
      `keyword`. */
  predicate BoundTo(f: Option<string>, cols: seq<string>, keyword: string) {
    f.Some? ==> f.value in cols && Contains(f.value, keyword)
  }

  /** Binds every logical field once, from the normalised header row. */
  function Resolve(cols: seq<string>): (b: Bindings)
    ensures BoundTo(b.semester, cols, "semester")
    ensures BoundTo(b.academicYear, cols, "academic") && BoundTo(b.academicYear, cols, "year")
    ensures BoundTo(b.concert, cols, "concert")
    ensures BoundTo(b.index, cols, "index")
    ensures BoundTo(b.performer, cols, "performer")
    ensures BoundTo(b.performanceType, cols, "performance type")
    ensures BoundTo(b.performerType, cols, "performer type")
    ensures BoundTo(b.instrument, cols, "instrument")
    ensures BoundTo(b.composer, cols, "composer") && (b.composer.Some? ==> IsComposerName(b.composer.value))
    ensures BoundTo(b.piece, cols, "piece")
    ensures BoundTo(b.date, cols, "date")
    ensures BoundTo(b.category, cols, "composer category")
    ensures BoundTo(b.status, cols, "composer status")
    ensures b.semester == DetectColumn(cols, ["semester"])
    ensures b.academicYear == DetectColumn(cols, ["academic", "year"])
    ensures b.concert == DetectColumn(cols, ["concert"])
    ensures b.index == DetectColumn(cols, ["index"])
    ensures b.performer == DetectColumn(cols, ["performer"])
    ensures b.performanceType == DetectColumn(cols, ["performance type"])
    ensures b.performerType == DetectColumn(cols, ["performer type"])
    ensures b.instrument == DetectColumn(cols, ["instrument"])
    ensures b.composer == ComposerColumn(cols)
    ensures b.piece == DetectColumn(cols, ["piece"])
    ensures b.date == DetectColumn(cols, ["date"])
    ensures b.category == DetectColumn(cols, ["composer category"])
    ensures b.status == DetectColumn(cols, ["composer status"])
  {
    var semester := Detect1(cols, "semester");
    var year := DetectYear(cols);
    var concert := Detect1(cols, "concert");
    var index := Detect1(cols, "index");
    var performer := Detect1(cols, "performer");
    var performanceType := Detect1(cols, "performance type");
    var performerType := Detect1(cols, "performer type");
    var instrument := Detect1(cols, "instrument");
    var piece := Detect1(cols, "piece");
    var date := Detect1(cols, "date");
    var category := Detect1(cols, "composer category");
    var status := Detect1(cols, "composer status");
    Bindings(semester, year, concert, index, performer, performanceType, performerType,
             instrument, ComposerColumn(cols), piece, date, category, status)
  }

  /** Detection by a single keyword, with its soundness fact. */
  function Detect1(cols: seq<string>, keyword: string): (r: Option<string>)
    ensures r == DetectColumn(cols, [keyword])
    ensures BoundTo(r, cols, keyword)
  {
    DetectColumnSound(cols, [keyword]);
    var r := DetectColumn(cols, [keyword]);
    assert r.Some? ==> Contains(r.value, [keyword][0]);
    r
  }

  /** Detection of the academic-year column, whose name must contain both
      "academic" and "year", with its soundness fact. */
  function DetectYear(cols: seq<string>): (r: Option<string>)
    ensures r == DetectColumn(cols, ["academic", "year"])
    ensures BoundTo(r, cols, "academic") && BoundTo(r, cols, "year")
  {
    DetectColumnSound(cols, ["academic", "year"]);
    var r := DetectColumn(cols, ["academic", "year"]);
    assert r.Some? ==> Contains(r.value, ["academic", "year"][0]) && Contains(r.value, ["academic", "year"][1]);
    r
  }
}

=== FILE: dashboard.dfy ===
/** The dashboard pipeline end to end (app.py:98-256): the sidebar state
    becomes a query, the query filters the table, and the filtered rows
    are sorted for display; the gauges and metrics read the result. */
module Dashboard {
  import opened Wrappers
  import opened Seqs
  import opened Columns
  import opened Records
  import opened Filters
  import opened Sorting
  import opened Demographics
  import opened Session
  import opened Summary
  import opened Metrics

  /** The filter selections the sidebar reads out of the session: the
      checked academic years, semesters and performance types (each only
      when its column is bound), and the two dropdown choices. The option
      lists are the column's distinct values, as shown in the sidebar. */
  function QueryOf(b: Bindings, s: State, ayOpts: seq<string>, semOpts: seq<string>, ptOpts: seq<string>,
                   composer: string, performer: string): (q: Query)
    ensures b.academicYear.None? ==> q.years == []
    ensures b.semester.None? ==> q.semesters == []
    ensures b.performanceType.None? ==> q.types == []
    ensures IsSubsequence(q.years, ayOpts) && IsSubsequence(q.semesters, semOpts) && IsSubsequence(q.types, ptOpts)
    ensures b.academicYear.Some? ==> forall y :: y in ayOpts ==> (y in q.years <==> Checked(s, "AY_" + y))
    ensures b.semester.Some? ==> forall m :: m in semOpts ==> (m in q.semesters <==> Checked(s, "Sem_" + m))
    ensures b.performanceType.Some? ==> forall t :: t in ptOpts ==> (t in q.types <==> Checked(s, "PT_" + t))
    ensures forall y :: y in q.years ==> y in ayOpts
    ensures forall m :: m in q.semesters ==> m in semOpts
    ensures forall t :: t in q.types ==> t in ptOpts
    ensures q.composer == composer && q.performer == performer
  {
    var years := if b.academicYear.Some? then Selected(s, "AY_", ayOpts) else [];
    var semesters := if b.semester.Some? then Selected(s, "Sem_", semOpts) else [];
    var types := if b.performanceType.Some? then Selected(s, "PT_", ptOpts) else [];
    SubsequenceMembers(Selected(s, "AY_", ayOpts), ayOpts);
    SubsequenceMembers(Selected(s, "Sem_", semOpts), semOpts);
    SubsequenceMembers(Selected(s, "PT_", ptOpts), ptOpts);
    Query(years, semesters, types, composer, performer)
  }

  /** The table the dashboard shows: the filtered rows in display order. */
  function View(b: Bindings, q: Query, rows: seq<Row>): (r: seq<Row>)
    ensures multiset(r) == multiset(FilterRows(b, q, rows))
    ensures Sorted(KeyFn(ModeOf(b)), r)
    ensures forall k :: WithKey(KeyFn(ModeOf(b)), r, k) == WithKey(KeyFn(ModeOf(b)), FilterRows(b, q, rows), k)
    ensures forall x :: x in r <==> x in rows && Keep(b, q, x)
  {
    var kept := FilterRows(b, q, rows);
    WhereMembers(rows, KeepMask(b, q));
    assert forall x :: x in kept ==> x in multiset(rows);
    SortRows(b, kept)
  }

  /** Sorting for display does not change any gauge: the tallies of the
      view are those of the filtered table. */
  lemma ViewTallies(b: Bindings, q: Query, rows: seq<Row>)
    ensures Tally(b, View(b, q, rows)) == Tally(b, FilterRows(b, q, rows))
  {
    TallyPermutation(b, View(b, q, rows), FilterRows(b, q, rows));
  }

  /** A fresh session (no box ever touched) with both the academic-year
      and semester columns present shows no rows at all. */
  lemma FreshSessionShowsNothing(b: Bindings, ayOpts: seq<string>, semOpts: seq<string>, ptOpts: seq<string>,
                                 composer: string, performer: string, rows: seq<Row>)
    requires b.academicYear.Some? && b.semester.Some?
    ensures View(b, QueryOf(b, map[], ayOpts, semOpts, ptOpts, composer, performer), rows) == []
  {
    var q := QueryOf(b, map[], ayOpts, semOpts, ptOpts, composer, performer);
    EmptySelection(ayOpts, "AY_");
    EmptySelection(semOpts, "Sem_");
    EmptyYearAndSemesterExcludeAll(b, q, rows);
  }

  lemma EmptySelection(opts: seq<string>, prefix: string)
    ensures Selected(map[], prefix, opts) == []
  {
  }

  /** "Clear All Filters" with both the academic-year and semester columns
      present empties the view, whatever else was selected. */
  lemma ClearAllShowsNothing(b: Bindings, s: State, ayOpts: seq<string>, semOpts: seq<string>, ptOpts: seq<string>,
                             composer: string, performer: string, rows: seq<Row>)
    requires b.academicYear.Some? && b.semester.Some?
    ensures View(b, QueryOf(b, ClearAllFilters(s), ayOpts, semOpts, ptOpts, composer, performer), rows) == []
  {
    var q := QueryOf(b, ClearAllFilters(s), ayOpts, semOpts, ptOpts, composer, performer);
    ClearAllUnselects(s, ayOpts, semOpts);
    EmptyYearAndSemesterExcludeAll(b, q, rows);
  }

  /** A row of a checked academic year is shown when no performance type
      is selected and both dropdowns stand at "All". */
  lemma CheckedYearIsShown(b: Bindings, s: State, ayOpts: seq<string>, semOpts: seq<string>, ptOpts: seq<string>,
                           rows: seq<Row>, x: Row)
    requires b.academicYear.Some?
    requires x in rows && x.academicYear.Some? && x.academicYear.value in ayOpts
    requires Checked(s, "AY_" + x.academicYear.value)
    requires forall t :: t in ptOpts ==> !Checked(s, "PT_" + t)
    ensures x in View(b, QueryOf(b, s, ayOpts, semOpts, ptOpts, "All", "All"), rows)
  {
    var q := QueryOf(b, s, ayOpts, semOpts, ptOpts, "All", "All");
    assert |q.types| == 0 by {
      assert forall t :: t in q.types ==> t in ptOpts && !Checked(s, "PT_" + t);
    }
    assert Keep(b, q, x);
  }

  /** As written, clearing does not reset the performance-type boxes: with
      no semester column, a row of another type stays hidden after
      "Clear All Filters". */
  lemma ClearAllStillFiltersTypes(b: Bindings, x: Row)
    requires b.semester.None? && b.performanceType.Some?
    requires x.performanceType == Some("Masterclass")
    ensures x !in View(b, QueryOf(b, ClearAllFilters(map["PT_Recital" := Flag(true)]), [], [], ["Recital"], "All", "All"), [x])
  {
    ClearAllKeepsTypeBoxes();
  }

  /** Clearing as intended resets the type boxes too, so with no semester
      column every row is shown again, whatever year and type boxes the
      sidebar has. */
  lemma IntendedClearShowsAll(b: Bindings, s: State, ayOpts: seq<string>, semOpts: seq<string>, ptOpts: seq<string>,
                              rows: seq<Row>)
    requires b.semester.None?
    ensures View(b, QueryOf(b, ClearAllFiltersIntended(s), ayOpts, semOpts, ptOpts, "All", "All"), rows) == SortRows(b, rows)
  {
    var q := QueryOf(b, ClearAllFiltersIntended(s), ayOpts, semOpts, ptOpts, "All", "All");
    IntendedClearUnselects(s, ayOpts, semOpts, ptOpts);
    assert forall x :: Keep(b, q, x);
    WhereAll(rows, KeepMask(b, q));
  }

  /** A dropdown choice that the summary shows (anything but "N/A")
      narrows the view to that exact composer. */
  lemma ShownComposerNarrowsView(b: Bindings, q: Query, rows: seq<Row>)
    requires b.composer.Some? && ChoiceValue(q.composer) != "N/A"
    ensures forall x :: x in View(b, q, rows) ==> x.composer == Some(q.composer)
  {
  }

  /** The performer dropdown, likewise. */
  lemma ShownPerformerNarrowsView(b: Bindings, q: Query, rows: seq<Row>)
    requires b.performer.Some? && ChoiceValue(q.performer) != "N/A"
    ensures forall x :: x in View(b, q, rows) ==> x.performer == Some(q.performer)
  {
  }

  /** The panel below the charts: the three headline metrics and the
      details table with its header. */
  datatype MainPanel = MainPanel(total: nat, works: Option<nat>, performers: Option<nat>,
                                 headers: seq<string>, table: seq<Row>)

  /** What one run of the script puts on the page: the gauges, then the
      cross-tab chart, then the main panel. None marks a part the run never
      reaches. */
  datatype Page = Page(tallies: Tallies, crossTab: Option<seq<CrossCell>>, main: Option<MainPanel>)

  /** The main panel over the filtered, sorted rows. */
  function Panel(b: Bindings, view: seq<Row>): MainPanel {
    MainPanel(|view|, DistinctWorks(b, view), DistinctPerformers(b, view), DisplayHeaders(b), view)
  }

  /** The page as written: the gauges always render, but the cross-tab
      looks up the category and status columns unguarded, so with either
      unbound the run stops there and neither the chart nor the main panel
      appears. Every figure shown is that of the filtered rows, whatever
      their display order. */
  function Render(b: Bindings, q: Query, rows: seq<Row>): (p: Page)
    ensures p.tallies == Tally(b, FilterRows(b, q, rows))
    ensures p.main.Some? <==> b.category.Some? && b.status.Some?
    ensures p.crossTab.Some? <==> p.main.Some?
    ensures p.crossTab.Some? ==> p.crossTab.value == Cells(FilterRows(b, q, rows))
    ensures p.main.Some? ==> p.main.value.table == View(b, q, rows)
    ensures p.main.Some? ==> p.main.value.total == |FilterRows(b, q, rows)|
    ensures p.main.Some? ==> p.main.value.works == DistinctWorks(b, FilterRows(b, q, rows))
    ensures p.main.Some? ==> p.main.value.performers == DistinctPerformers(b, FilterRows(b, q, rows))
    ensures p.main.Some? ==> p.main.value.headers == DisplayHeaders(b)
  {
    var view := View(b, q, rows);
    var kept := FilterRows(b, q, rows);
    TallyPermutation(b, view, kept);
    CellsPermutation(view, kept);
    DistinctCountsPermutation(b, view, kept);
    assert |view| == |multiset(view)| == |kept|;
    var cross := CrossTab(b, view);
    Page(Tally(b, view), cross, if cross.Some? then Some(Panel(b, view)) else None)
  }

  /** The page as evidently intended: the cross-tab is skipped when a code
      column is missing and the main panel always renders. */
  function RenderIntended(b: Bindings, q: Query, rows: seq<Row>): (p: Page)
    ensures p.main.Some?
    ensures p.crossTab.Some? <==> b.category.Some? && b.status.Some?
    ensures p.main.value.table == View(b, q, rows)
    ensures p.main.value.total == |FilterRows(b, q, rows)|
    ensures p.main.value.works == DistinctWorks(b, FilterRows(b, q, rows))
    ensures p.main.value.performers == DistinctPerformers(b, FilterRows(b, q, rows))
    ensures p.main.value.headers == DisplayHeaders(b)
    ensures p.crossTab.Some? ==> p.crossTab.value == Cells(FilterRows(b, q, rows))
    ensures Render(b, q, rows).main.Some? ==> p == Render(b, q, rows)
    ensures p.tallies == Render(b, q, rows).tallies
  {
    var view := View(b, q, rows);
    var kept := FilterRows(b, q, rows);
    TallyPermutation(b, view, kept);
    CellsPermutation(view, kept);
    DistinctCountsPermutation(b, view, kept);
    assert |view| == |multiset(view)| == |kept|;
    Page(Tally(b, view), CrossTab(b, view), Some(Panel(b, view)))
  }

  /** As written, a missing composer-category column hides every row of
      the details table, even one the filters keep; the intended page shows
      it. */
  lemma MissingCategoryHidesTable(b: Bindings, q: Query, x: Row)
    requires b.category.None? && Keep(b, q, x)
    ensures Render(b, q, [x]).main.None?
    ensures x in RenderIntended(b, q, [x]).main.value.table
  {
  }
}

=== FILE: demographics.dfy ===
/** The composer-demographic tallies (app.py:258-287) and the group by
    vital-status cross-tab (app.py:325-332). Category codes: 1 White Man,
    2 White Woman, 3 BBIA Man, 4 BBIA Woman; status codes: 1 Living,
    2 Deceased. */
module Demographics {
  import opened Wrappers
  import opened Seqs
  import opened Columns
  import opened Records

  /** Rows whose category code is present and one of `codes`. */
  function CategoryIn(codes: set<int>): Row -> bool {
    (x: Row) => x.category.Some? && x.category.value in codes
  }

  /** Rows whose status code is present and equal to `code`. */
  function StatusIs(code: int): Row -> bool {
    (x: Row) => x.status == Some(code)
  }

  /** Rows with no recognised category code: missing, or outside 1..4. */
  function Uncoded(): Row -> bool {
    (x: Row) => x.category.None? || x.category.value !in {1, 2, 3, 4}
  }

  /** The counts behind the gauges. `nb` is what remains of the total
      after the male and female counts are taken away. */
  datatype Tallies = Tallies(
    total: nat,
    male: nat, female: nat, nb: int,
    white: nat, bbia: nat,
    whiteMen: nat, whiteWomen: nat, bbiaMen: nat, bbiaWomen: nat,
    living: nat, deceased: nat)

  /** A category count over the bound column, or 0 when it is unbound (the
      empty series). */
  function CategoryCount(b: Bindings, rows: seq<Row>, codes: set<int>): nat {
    if b.category.Some? then Count(rows, CategoryIn(codes)) else 0
  }

  function StatusCount(b: Bindings, rows: seq<Row>, code: int): nat {
    if b.status.Some? then Count(rows, StatusIs(code)) else 0
  }

  /** The gauges' counts over the filtered rows. Male, female and NB add up
      to the total; NB is never negative and counts exactly the rows
      without a recognised code (every row when the column is unbound);
      the ethnicity split and the four groups each add up to male plus
      female; living and deceased never exceed the total. */
  function Tally(b: Bindings, rows: seq<Row>): (t: Tallies)
    ensures t.total == |rows|
    ensures t.male + t.female + t.nb == t.total
    ensures t.nb >= 0
    ensures b.category.Some? ==> t.nb == Count(rows, Uncoded())
    ensures b.category.None? ==> t.nb == t.total
    ensures t.white + t.bbia == t.male + t.female
    ensures t.whiteMen + t.whiteWomen + t.bbiaMen + t.bbiaWomen == t.male + t.female
    ensures t.living + t.deceased <= t.total
  {
    var male := CategoryCount(b, rows, {1, 3});
    var female := CategoryCount(b, rows, {2, 4});
    CategoryConservation(rows);
    StatusBound(rows);
    Tallies(
      |rows|,
      male, female, |rows| - male - female,
      CategoryCount(b, rows, {1, 2}), CategoryCount(b, rows, {3, 4}),
      CategoryCount(b, rows, {1}), CategoryCount(b, rows, {2}),
      CategoryCount(b, rows, {3}), CategoryCount(b, rows, {4}),
      StatusCount(b, rows, 1), StatusCount(b, rows, 2))
  }

  /** The splits of the recognised codes agree with one another and, with
      the unrecognised rows, cover the table. */
  lemma CategoryConservation(rows: seq<Row>)
    ensures Count(rows, CategoryIn({1, 3})) + Count(rows, CategoryIn({2, 4}))
            == Count(rows, CategoryIn({1, 2, 3, 4}))
    ensures Count(rows, CategoryIn({1, 2})) + Count(rows, CategoryIn({3, 4}))
            == Count(rows, CategoryIn({1, 2, 3, 4}))
    ensures Count(rows, CategoryIn({1})) + Count(rows, CategoryIn({2}))
            + Count(rows, CategoryIn({3})) + Count(rows, CategoryIn({4}))
            == Count(rows, CategoryIn({1, 2, 3, 4}))
    ensures Count(rows, CategoryIn({1, 2, 3, 4})) + Count(rows, Uncoded()) == |rows|
  {
    CountDisjoint(rows, CategoryIn({1, 3}), CategoryIn({2, 4}), CategoryIn({1, 2, 3, 4}));
    CountDisjoint(rows, CategoryIn({1, 2}), CategoryIn({3, 4}), CategoryIn({1, 2, 3, 4}));
    CountDisjoint(rows, CategoryIn({1}), CategoryIn({2}), CategoryIn({1, 2}));
    CountDisjoint(rows, CategoryIn({3}), CategoryIn({4}), CategoryIn({3, 4}));
    CountComplement(rows, CategoryIn({1, 2, 3, 4}), Uncoded());
  }

  lemma StatusBound(rows: seq<Row>)
    ensures Count(rows, StatusIs(1)) + Count(rows, StatusIs(2)) <= |rows|
  {
    var either := (x: Row) => x.status == Some(1) || x.status == Some(2);
    CountDisjoint(rows, StatusIs(1), StatusIs(2), either);
  }

  /** The tallies do not depend on row order, so sorting the filtered view
      leaves the gauges unchanged. */
  lemma TallyPermutation(b: Bindings, xs: seq<Row>, ys: seq<Row>)
    requires multiset(xs) == multiset(ys)
    ensures Tally(b, xs) == Tally(b, ys)
  {
    assert |xs| == |multiset(xs)| == |ys|;
    forall codes: set<int>
      ensures Count(xs, CategoryIn(codes)) == Count(ys, CategoryIn(codes))
    {
      CountPermutation(xs, ys, CategoryIn(codes));
    }
    CountPermutation(xs, ys, StatusIs(1));
    CountPermutation(xs, ys, StatusIs(2));
  }

  /** A BBIA man who is living is counted as BBIA Men, BBIA, Male and
      Living, and nowhere else. */
  lemma BbiaLivingManTally(b: Bindings, x: Row)
    requires b.category.Some? && b.status.Some?
    requires x.category == Some(3) && x.status == Some(1)
    ensures Tally(b, [x]) == Tallies(1, 1, 0, 0, 0, 1, 0, 0, 1, 0, 1, 0)
  {
  }

  /** No rows, all counts zero. */
  const NoTallies := Tallies(0, 0, 0, 0, 0, 0, 0, 0, 0, 0, 0, 0)

  function Indicator(c: bool): nat {
    if c then 1 else 0
  }

  /** What one row adds to each gauge: its category code (read as
      uncoded when missing or when the column is unbound) decides gender,
      ethnicity and group, or NB when it is outside 1..4; its status code
      decides Living or Deceased. */
  function RowTally(b: Bindings, x: Row): Tallies {
    var coded := b.category.Some? && x.category.Some?;
    var cat := if coded then x.category.value else 0;
    var st := if b.status.Some? && x.status.Some? then x.status.value else 0;
    Tallies(
      1,
      Indicator(cat in {1, 3}), Indicator(cat in {2, 4}),
      Indicator(cat !in {1, 2, 3, 4}),
      Indicator(cat in {1, 2}), Indicator(cat in {3, 4}),
      Indicator(cat == 1), Indicator(cat == 2), Indicator(cat == 3), Indicator(cat == 4),
      Indicator(st == 1), Indicator(st == 2))
  }

  function Plus(t: Tallies, u: Tallies): Tallies {
    Tallies(
      t.total + u.total, t.male + u.male, t.female + u.female, t.nb + u.nb,
      t.white + u.white, t.bbia + u.bbia,
      t.whiteMen + u.whiteMen, t.whiteWomen + u.whiteWomen,
      t.bbiaMen + u.bbiaMen, t.bbiaWomen + u.bbiaWomen,
      t.living + u.living, t.deceased + u.deceased)
  }

  /** The empty table tallies to zero everywhere. */
  lemma TallyEmpty(b: Bindings)
    ensures Tally(b, []) == NoTallies
  {
  }

  /** Adding a row to any table adds exactly that row's own contribution to
      every gauge: each count counts the rows with the codes it names. */
  lemma {:induction false} TallyAppend(b: Bindings, rows: seq<Row>, x: Row)
    ensures Tally(b, rows + [x]) == Plus(Tally(b, rows), RowTally(b, x))
  {
    var t := Tally(b, rows);
    var u := Tally(b, rows + [x]);
    var d := RowTally(b, x);
    assert u.male == t.male + d.male by { CategoryCountAppend(b, rows, x, {1, 3}); }
    assert u.female == t.female + d.female by { CategoryCountAppend(b, rows, x, {2, 4}); }
    assert u.nb == t.nb + d.nb by {
      CategoryCountAppend(b, rows, x, {1, 3});
      CategoryCountAppend(b, rows, x, {2, 4});
    }
    assert u.white == t.white + d.white by { CategoryCountAppend(b, rows, x, {1, 2}); }
    assert u.bbia == t.bbia + d.bbia by { CategoryCountAppend(b, rows, x, {3, 4}); }
    assert u.whiteMen == t.whiteMen + d.whiteMen by { CategoryCountAppend(b, rows, x, {1}); }
    assert u.whiteWomen == t.whiteWomen + d.whiteWomen by { CategoryCountAppend(b, rows, x, {2}); }
    assert u.bbiaMen == t.bbiaMen + d.bbiaMen by { CategoryCountAppend(b, rows, x, {3}); }
    assert u.bbiaWomen == t.bbiaWomen + d.bbiaWomen by { CategoryCountAppend(b, rows, x, {4}); }
    assert u.living == t.living + d.living by { StatusCountAppend(b, rows, x, 1); }
    assert u.deceased == t.deceased + d.deceased by { StatusCountAppend(b, rows, x, 2); }
  }

  /** One more row raises a category count by one exactly when the column
      is bound and the row's code is among the counted ones. */
  lemma {:induction false} CategoryCountAppend(b: Bindings, rows: seq<Row>, x: Row, codes: set<int>)
    ensures CategoryCount(b, rows + [x], codes) ==
            CategoryCount(b, rows, codes) + Indicator(b.category.Some? && x.category.Some? && x.category.value in codes)
  {
    CountAppend(rows, [x], CategoryIn(codes));
    assert [x][1..] == [];
  }

  lemma {:induction false} StatusCountAppend(b: Bindings, rows: seq<Row>, x: Row, code: int)
    ensures StatusCount(b, rows + [x], code) ==
            StatusCount(b, rows, code) + Indicator(b.status.Some? && x.status == Some(code))
  {
    CountAppend(rows, [x], StatusIs(code));
    assert [x][1..] == [];
  }

  // ---------------------------------------------------------------------
  // Cross-tab of demographic group by vital status
  // ---------------------------------------------------------------------

  /** One record of the cross-tab: group label, status label, count. */
  datatype CrossCell = CrossCell(group: string, status: string, count: nat)

  /** The four groups with their codes, in the dashboard's order. */
  const Groups: seq<(string, int)> :=
    [("White Men", 1), ("White Women", 2), ("BBIA Men", 3), ("BBIA Women", 4)]

  /** The two vital statuses with their codes. */
  const Statuses: seq<(string, int)> := [("Living", 1), ("Deceased", 2)]

  /** The code as the cross-tab reads it: a missing code counts as 0. */
  function CodeOrZero(c: Option<int>): int {
    c.GetOr(0)
  }

  /** Rows whose category reads as `g` and whose status reads as `s`. */
  function GroupStatusIs(g: int, s: int): Row -> bool {
    (x: Row) => CodeOrZero(x.category) == g && CodeOrZero(x.status) == s
  }

  /** The eight records, groups outermost, Living before Deceased. */
  function Cells(rows: seq<Row>): (r: seq<CrossCell>)
    ensures |r| == 8
    ensures forall k :: 0 <= k < 8 ==>
              r[k].group == Groups[k / 2].0 && r[k].status == Statuses[k % 2].0
    ensures forall k :: 0 <= k < 8 ==>
              r[k].count == Count(rows, GroupStatusIs(k / 2 + 1, k % 2 + 1))
  {
    seq(8, k requires 0 <= k < 8 =>
      CrossCell(Groups[k / 2].0, Statuses[k % 2].0,
                Count(rows, GroupStatusIs(Groups[k / 2].1, Statuses[k % 2].1))))
  }

  /** The cross-tab; None when either code column is unbound, where the
      dashboard looks up a column named None and fails. */
  function CrossTab(b: Bindings, rows: seq<Row>): (r: Option<seq<CrossCell>>)
    ensures r.Some? <==> b.category.Some? && b.status.Some?
    ensures r.Some? ==> r.value == Cells(rows)
    ensures r.Some? ==> |r.value| == 8 && SumCounts(r.value) <= |rows|
  {
    if b.category.Some? && b.status.Some? then
      CellsSum(rows);
      Some(Cells(rows))
    else None
  }

  /** The cross-tab counts do not depend on row order. */
  lemma CellsPermutation(xs: seq<Row>, ys: seq<Row>)
    requires multiset(xs) == multiset(ys)
    ensures Cells(xs) == Cells(ys)
  {
    forall k | 0 <= k < 8
      ensures Cells(xs)[k] == Cells(ys)[k]
    {
      CountPermutation(xs, ys, GroupStatusIs(k / 2 + 1, k % 2 + 1));
    }
  }

  function SumCounts(cells: seq<CrossCell>): nat {
    if |cells| == 0 then 0 else cells[0].count + SumCounts(cells[1..])
  }

  /** Rows whose category is 1..4 and whose status is 1..2. */
  function FullyCoded(): Row -> bool {
    (x: Row) => CodeOrZero(x.category) in {1, 2, 3, 4} && CodeOrZero(x.status) in {1, 2}
  }

  /** Rows whose category reads as one of `gs` and whose status is 1..2. */
  function GroupsCoded(gs: set<int>): Row -> bool {
    (x: Row) => CodeOrZero(x.category) in gs && CodeOrZero(x.status) in {1, 2}
  }

  /** The eight cells together count exactly the rows with both codes
      recognised, so never more than the filtered rows. */
  lemma {:induction false} CellsSum(rows: seq<Row>)
    ensures SumCounts(Cells(rows)) == Count(rows, FullyCoded())
    ensures SumCounts(Cells(rows)) <= |rows|
  {
    CellsExpand(rows);
    GroupStatuses(rows, 1);
    GroupStatuses(rows, 2);
    GroupStatuses(rows, 3);
    GroupStatuses(rows, 4);
    CountDisjoint(rows, GroupsCoded({1}), GroupsCoded({2}), GroupsCoded({1, 2}));
    CountDisjoint(rows, GroupsCoded({3}), GroupsCoded({4}), GroupsCoded({3, 4}));
    CountDisjoint(rows, GroupsCoded({1, 2}), GroupsCoded({3, 4}), FullyCoded());
  }

  /** The Living and Deceased cells of a group split its coded rows. */
  lemma GroupStatuses(rows: seq<Row>, g: int)
    ensures Count(rows, GroupStatusIs(g, 1)) + Count(rows, GroupStatusIs(g, 2)) == Count(rows, GroupsCoded({g}))
  {
    CountDisjoint(rows, GroupStatusIs(g, 1), GroupStatusIs(g, 2), GroupsCoded({g}));
  }

  lemma CellsExpand(rows: seq<Row>)
    ensures SumCounts(Cells(rows)) ==
            Count(rows, GroupStatusIs(1, 1)) + Count(rows, GroupStatusIs(1, 2)) +
            Count(rows, GroupStatusIs(2, 1)) + Count(rows, GroupStatusIs(2, 2)) +
            Count(rows, GroupStatusIs(3, 1)) + Count(rows, GroupStatusIs(3, 2)) +
            Count(rows, GroupStatusIs(4, 1)) + Count(rows, GroupStatusIs(4, 2))
  {
    var c := Cells(rows);
    assert SumCounts(c[8..]) == 0;
    assert SumCounts(c[7..]) == c[7].count + SumCounts(c[8..]);
    assert SumCounts(c[6..]) == c[6].count + SumCounts(c[7..]);
    assert SumCounts(c[5..]) == c[5].count + SumCounts(c[6..]);
    assert SumCounts(c[4..]) == c[4].count + SumCounts(c[5..]);
    assert SumCounts(c[3..]) == c[3].count + SumCounts(c[4..]);
    assert SumCounts(c[2..]) == c[2].count + SumCounts(c[3..]);
    assert SumCounts(c[1..]) == c[1].count + SumCounts(c[2..]);
    assert SumCounts(c) == c[0].count + SumCounts(c[1..]);
  }

  /** The cell a row with group code `g` in 1..4 and status code `s` in
      1..2 belongs to. */
  function CellOf(g: int, s: int): int {
    2 * (g - 1) + (s - 1)
  }

  /** Adding a row to any table adds one to the cell of its group and
      status, when both codes are recognised, and changes no other cell. */
  lemma {:induction false} CellsAppend(rows: seq<Row>, x: Row)
    ensures forall k :: 0 <= k < 8 ==>
              Cells(rows + [x])[k].count == Cells(rows)[k].count +
                (if FullyCoded()(x) && k == CellOf(CodeOrZero(x.category), CodeOrZero(x.status)) then 1 else 0)
  {
    assert [x][1..] == [];
    forall k | 0 <= k < 8
      ensures Cells(rows + [x])[k].count == Cells(rows)[k].count +
                (if FullyCoded()(x) && k == CellOf(CodeOrZero(x.category), CodeOrZero(x.status)) then 1 else 0)
    {
      CountAppend(rows, [x], GroupStatusIs(k / 2 + 1, k % 2 + 1));
    }
  }

  /** Adding the row of a living BBIA man to any table adds one to the
      "BBIA Men"/"Living" cell and to no other. */
  lemma BbiaLivingManCell(rows: seq<Row>, x: Row)
    requires x.category == Some(3) && x.status == Some(1)
    ensures forall k :: 0 <= k < 8 ==>
              Cells(rows + [x])[k].count ==
                Cells(rows)[k].count + (if Cells(rows)[k].group == "BBIA Men" && Cells(rows)[k].status == "Living" then 1 else 0)
  {
    CellsAppend(rows, x);
  }
}

=== FILE: filters.dfy ===
/** The mask builder and the row filter of the dashboard (app.py:189-226):
    academic year OR semester, AND performance type, then exact-match
    narrowing on composer and performer. */
module Filters {
  import opened Wrappers
  import opened Seqs
  import opened Columns
  import opened Records

  /** The current selections: checked academic years, semesters and
      performance types, and the two dropdown choices ("All" = no choice). */
  datatype Query = Query(
    years: seq<string>,
    semesters: seq<string>,
    types: seq<string>,
    composer: string,
    performer: string)

  /** Membership of one cell in a selection: a missing cell is never in it. */
  predicate CellIn(c: Option<string>, selected: seq<string>) {
    c.Some? && c.value in selected
  }

  /** Academic-year mask: membership when the column is bound (an empty
      selection excludes every row), all-true otherwise. */
  predicate YearMask(b: Bindings, q: Query, r: Row) {
    b.academicYear.Some? ==> CellIn(r.academicYear, q.years)
  }

  /** Semester mask, with the same rule as the academic-year mask. */
  predicate SemesterMask(b: Bindings, q: Query, r: Row) {
    b.semester.Some? ==> CellIn(r.semester, q.semesters)
  }

  /** Performance-type mask: an empty selection imposes no restriction. */
  predicate TypeMask(b: Bindings, q: Query, r: Row) {
    b.performanceType.Some? && |q.types| > 0 ==> CellIn(r.performanceType, q.types)
  }

  /** The year-or-semester mask together with the type mask. */
  predicate CombinedMask(b: Bindings, q: Query, r: Row) {
    (YearMask(b, q, r) || SemesterMask(b, q, r)) && TypeMask(b, q, r)
  }

  /** The composer dropdown narrows to exact matches unless it is "All". */
  predicate ComposerMatch(b: Bindings, q: Query, r: Row) {
    q.composer != "All" && b.composer.Some? ==> r.composer == Some(q.composer)
  }

  predicate PerformerMatch(b: Bindings, q: Query, r: Row) {
    q.performer != "All" && b.performer.Some? ==> r.performer == Some(q.performer)
  }

  /** A row is shown exactly when it passes every stage. */
  predicate Keep(b: Bindings, q: Query, r: Row) {
    CombinedMask(b, q, r) && ComposerMatch(b, q, r) && PerformerMatch(b, q, r)
  }

  /** `Keep` as a mask over rows. */
  function KeepMask(b: Bindings, q: Query): Row -> bool {
    (x: Row) => Keep(b, q, x)
  }

  /** The rows passing the combined mask, in table order. */
  function MaskStage(b: Bindings, q: Query, rows: seq<Row>): seq<Row> {
    Where(rows, (x: Row) => CombinedMask(b, q, x))
  }

  /** The composer stage: keeps the rows whose composer is exactly the
      chosen one, applied only when a composer is chosen and the column is
      bound. */
  function ComposerStage(b: Bindings, q: Query, rows: seq<Row>): seq<Row> {
    if q.composer != "All" && b.composer.Some? then Where(rows, (x: Row) => x.composer == Some(q.composer))
    else rows
  }

  /** The performer dropdown stage, with the same rule. */
  function PerformerStage(b: Bindings, q: Query, rows: seq<Row>): seq<Row> {
    if q.performer != "All" && b.performer.Some? then Where(rows, (x: Row) => x.performer == Some(q.performer))
    else rows
  }

  /** The filtered table, stage by stage as the dashboard applies it: an
      order-preserving selection of exactly the rows passing every stage. */
  function FilterRows(b: Bindings, q: Query, rows: seq<Row>): (r: seq<Row>)
    ensures IsSubsequence(r, rows)
    ensures forall i :: 0 <= i < |r| ==> Keep(b, q, r[i])
    ensures forall x :: x in rows && Keep(b, q, x) ==> x in r
    ensures r == Where(rows, KeepMask(b, q))
  {
    StagesAreConjunction(b, q, rows);
    WhereIsSubsequence(rows, KeepMask(b, q));
    WhereMembers(rows, KeepMask(b, q));
    PerformerStage(b, q, ComposerStage(b, q, MaskStage(b, q, rows)))
  }

  /** Applying the three stages in turn keeps exactly the rows satisfying
      their conjunction. */
  lemma StagesAreConjunction(b: Bindings, q: Query, rows: seq<Row>)
    ensures PerformerStage(b, q, ComposerStage(b, q, MaskStage(b, q, rows)))
            == Where(rows, KeepMask(b, q))
  {
    var mask := (x: Row) => CombinedMask(b, q, x);
    var withComposer := (x: Row) => CombinedMask(b, q, x) && ComposerMatch(b, q, x);
    var keep := KeepMask(b, q);
    if q.composer != "All" && b.composer.Some? {
      WhereWhere(rows, mask, (x: Row) => x.composer == Some(q.composer), withComposer);
    } else {
      WhereCongruent(rows, mask, withComposer);
    }
    var byComposer := ComposerStage(b, q, MaskStage(b, q, rows));
    assert byComposer == Where(rows, withComposer);
    if q.performer != "All" && b.performer.Some? {
      WhereWhere(rows, withComposer, (x: Row) => x.performer == Some(q.performer), keep);
    } else {
      WhereCongruent(rows, withComposer, keep);
    }
  }

  /** Filtering a concatenation filters each part: the result is the
      kept rows in table order, with their multiplicities. */
  lemma FilterAppend(b: Bindings, q: Query, xs: seq<Row>, ys: seq<Row>)
    ensures FilterRows(b, q, xs + ys) == FilterRows(b, q, xs) + FilterRows(b, q, ys)
  {
    WhereAppend(xs, ys, KeepMask(b, q));
  }

  /** With no academic-year column the year mask is all-true, so the
      semester selection has no effect at all. */
  lemma {:induction false} YearUnboundIgnoresSemesters(b: Bindings, q: Query, semesters: seq<string>, rows: seq<Row>)
    requires b.academicYear.None?
    ensures FilterRows(b, q, rows) == FilterRows(b, q.(semesters := semesters), rows)
  {
    WhereCongruent(rows, KeepMask(b, q), KeepMask(b, q.(semesters := semesters)));
  }

  /** With both columns bound, selecting no year and no semester shows
      nothing. */
  lemma {:induction false} EmptyYearAndSemesterExcludeAll(b: Bindings, q: Query, rows: seq<Row>)
    requires b.academicYear.Some? && b.semester.Some?
    requires |q.years| == 0 && |q.semesters| == 0
    ensures FilterRows(b, q, rows) == []
  {
    WhereNone(rows, KeepMask(b, q));
  }

  /** With both columns unbound and no other restriction, every row is shown. */
  lemma {:induction false} UnboundColumnsShowAll(b: Bindings, q: Query, rows: seq<Row>)
    requires b.academicYear.None? && b.semester.None?
    requires |q.types| == 0 && q.composer == "All" && q.performer == "All"
    ensures FilterRows(b, q, rows) == rows
  {
    WhereAll(rows, KeepMask(b, q));
  }

  /** An empty type selection, or an unbound type column, filters exactly
      as if there were no type filter at all. */
  lemma {:induction false} EmptyTypeSelectionIsNoFilter(b: Bindings, q: Query, rows: seq<Row>)
    requires b.performanceType.None? || |q.types| == 0
    ensures FilterRows(b, q, rows) == FilterRows(b.(performanceType := None), q, rows)
  {
    WhereCongruent(rows, KeepMask(b, q), KeepMask(b.(performanceType := None), q));
  }

  /** Selecting every type that occurs filters like selecting none, provided
      no row has a missing type (a missing cell fails any membership test). */
  lemma {:induction false} AllTypesLikeNoTypes(b: Bindings, q: Query, rows: seq<Row>)
    requires forall i :: 0 <= i < |rows| ==> CellIn(rows[i].performanceType, q.types)
    ensures FilterRows(b, q, rows) == FilterRows(b, q.(types := []), rows)
  {
    WhereCongruent(rows, KeepMask(b, q), KeepMask(b, q.(types := [])));
  }

  /** The year and semester facets are a union: a row of a selected year
      passes that stage whatever its semester. */
  lemma SelectedYearPassesAnySemester(b: Bindings, q: Query, r: Row)
    requires b.academicYear.Some? && CellIn(r.academicYear, q.years)
    requires b.performanceType.None? && q.composer == "All" && q.performer == "All"
    ensures r in FilterRows(b, q, [r])
  {
  }
}

=== FILE: metrics.dfy ===
/** The headline metrics and the details table of the dashboard
    (app.py:447-478): total and distinct counts over the filtered rows, and
    the fixed choice and naming of the displayed columns. */
module Metrics {
  import opened Wrappers
  import opened Seqs
  import opened Columns
  import opened Records

  /** The (composer, piece) pair of every row, missing cells included. */
  function WorkPairs(rows: seq<Row>): (r: seq<(Option<string>, Option<string>)>)
    ensures |r| == |rows|
    ensures forall i :: 0 <= i < |rows| ==> r[i] == (rows[i].composer, rows[i].piece)
  {
    seq(|rows|, i requires 0 <= i < |rows| => (rows[i].composer, rows[i].piece))
  }

  /** The present values of a column, in row order (`dropna`). */
  function Present(cells: seq<Option<string>>): (r: seq<string>)
    ensures |r| <= |cells|
    ensures forall i :: 0 <= i < |cells| && cells[i].Some? ==> cells[i].value in r
    ensures forall i :: 0 <= i < |r| ==> Some(r[i]) in cells
  {
    if |cells| == 0 then []
    else
      var rest := Present(cells[1..]);
      assert forall i :: 1 <= i < |cells| ==> cells[i] == cells[1..][i - 1];
      if cells[0].Some? then [cells[0].value] + rest else rest
  }

  function Pieces(rows: seq<Row>): (r: seq<Option<string>>)
    ensures |r| == |rows| && forall i :: 0 <= i < |rows| ==> r[i] == rows[i].piece
  {
    seq(|rows|, i requires 0 <= i < |rows| => rows[i].piece)
  }

  function Performers(rows: seq<Row>): (r: seq<Option<string>>)
    ensures |r| == |rows| && forall i :: 0 <= i < |rows| ==> r[i] == rows[i].performer
  {
    seq(|rows|, i requires 0 <= i < |rows| => rows[i].performer)
  }

  /** Counting the distinct present values of a column (`nunique`) counts
      the set of its present values. */
  lemma DistinctPresent(cells: seq<Option<string>>)
    ensures |Dedup(Present(cells))| == |set i | 0 <= i < |cells| && cells[i].Some? :: cells[i].value|
    ensures |Dedup(Present(cells))| <= |cells|
  {
    var names := Present(cells);
    DedupCountsDistinct(names);
    assert (set x | x in names) == (set i | 0 <= i < |cells| && cells[i].Some? :: cells[i].value) by {
      forall x | x in names
        ensures exists i :: 0 <= i < |cells| && cells[i] == Some(x)
      {
        var i :| 0 <= i < |cells| && cells[i] == Some(x);
      }
    }
  }

  /** "Distinct Works": distinct (composer, piece) pairs when both columns
      are bound (a missing cell counts as one value), otherwise distinct
      present pieces, otherwise "N/A" (None). Never more than the rows. */
  function DistinctWorks(b: Bindings, rows: seq<Row>): (r: Option<nat>)
    ensures r.None? <==> b.piece.None?
    ensures r.Some? ==> r.value <= |rows|
    ensures b.piece.Some? && b.composer.Some? ==>
              r == Some(|set i | 0 <= i < |rows| :: (rows[i].composer, rows[i].piece)|)
    ensures b.piece.Some? && b.composer.Some? ==> (r.value > 0 <==> |rows| > 0)
    ensures b.piece.Some? && b.composer.None? ==>
              r == Some(|set i | 0 <= i < |rows| && rows[i].piece.Some? :: rows[i].piece.value|)
  {
    if b.piece.Some? && b.composer.Some? then
      var pairs := WorkPairs(rows);
      DedupCountsDistinct(pairs);
      assert (set x | x in pairs) == (set i | 0 <= i < |rows| :: (rows[i].composer, rows[i].piece));
      assert |rows| > 0 ==> pairs[0] in Dedup(pairs);
      Some(|Dedup(pairs)|)
    else if b.piece.Some? then
      DistinctPresent(Pieces(rows));
      assert (set i | 0 <= i < |rows| && Pieces(rows)[i].Some? :: Pieces(rows)[i].value)
          == (set i | 0 <= i < |rows| && rows[i].piece.Some? :: rows[i].piece.value);
      Some(|Dedup(Present(Pieces(rows)))|)
    else None
  }

  /** "Distinct Performers": distinct present performer names, or "N/A". */
  function DistinctPerformers(b: Bindings, rows: seq<Row>): (r: Option<nat>)
    ensures r.None? <==> b.performer.None?
    ensures r.Some? ==> r.value <= |rows|
    ensures r.Some? ==> r.value == |set i | 0 <= i < |rows| && rows[i].performer.Some? :: rows[i].performer.value|
  {
    if b.performer.Some? then
      DistinctPresent(Performers(rows));
      assert (set i | 0 <= i < |rows| && Performers(rows)[i].Some? :: Performers(rows)[i].value)
          == (set i | 0 <= i < |rows| && rows[i].performer.Some? :: rows[i].performer.value);
      Some(|Dedup(Present(Performers(rows)))|)
    else None
  }

  /** The distinct counts depend only on which rows are present, not on
      their order: sorting the view does not change them. */
  lemma DistinctCountsPermutation(b: Bindings, xs: seq<Row>, ys: seq<Row>)
    requires multiset(xs) == multiset(ys)
    ensures DistinctWorks(b, xs) == DistinctWorks(b, ys)
    ensures DistinctPerformers(b, xs) == DistinctPerformers(b, ys)
  {
    RowValues(xs);
    RowValues(ys);
    assert forall x :: x in xs <==> x in ys by {
      assert forall x :: x in xs <==> x in multiset(xs);
      assert forall x :: x in ys <==> x in multiset(ys);
    }
    assert (set x | x in xs :: (x.composer, x.piece)) == (set x | x in ys :: (x.composer, x.piece));
    assert (set x | x in xs && x.piece.Some? :: x.piece.value) == (set x | x in ys && x.piece.Some? :: x.piece.value);
    assert (set x | x in xs && x.performer.Some? :: x.performer.value)
        == (set x | x in ys && x.performer.Some? :: x.performer.value);
  }

  /** The index comprehensions of the distinct counts, as sets over the
      rows themselves. */
  lemma RowValues(rows: seq<Row>)
    ensures (set i | 0 <= i < |rows| :: (rows[i].composer, rows[i].piece))
         == (set x | x in rows :: (x.composer, x.piece))
    ensures (set i | 0 <= i < |rows| && rows[i].piece.Some? :: rows[i].piece.value)
         == (set x | x in rows && x.piece.Some? :: x.piece.value)
    ensures (set i | 0 <= i < |rows| && rows[i].performer.Some? :: rows[i].performer.value)
         == (set x | x in rows && x.performer.Some? :: x.performer.value)
  {
  }

  // ---------------------------------------------------------------------
  // Details table
  // ---------------------------------------------------------------------

  /** The display labels, in the table's fixed order. */
  const Labels: seq<string> := ["Semester", "Date", "Performer", "Instrument", "Composer", "Piece"]

  /** The physical column behind each label; the date is shown from the
      derived `date_clean` column. */
  function Sources(b: Bindings): seq<Option<string>> {
    [b.semester, if b.date.Some? then Some("date_clean") else None,
     b.performer, b.instrument, b.composer, b.piece]
  }

  /** The (column, label) pairs of the bound fields, in label order. */
  function Slots(src: seq<Option<string>>, labels: seq<string>): (r: seq<(string, string)>)
    requires |src| == |labels|
    ensures |r| <= |src|
  {
    if |src| == 0 then []
    else (if src[0].Some? then [(src[0].value, labels[0])] else []) + Slots(src[1..], labels[1..])
  }

  function ColumnsOf(slots: seq<(string, string)>): (r: seq<string>)
    ensures |r| == |slots|
    ensures forall i :: 0 <= i < |slots| ==> r[i] == slots[i].0
  {
    if |slots| == 0 then [] else [slots[0].0] + ColumnsOf(slots[1..])
  }

  function LabelsOf(slots: seq<(string, string)>): (r: seq<string>)
    ensures |r| == |slots|
    ensures forall i :: 0 <= i < |slots| ==> r[i] == slots[i].1
  {
    if |slots| == 0 then [] else [slots[0].1] + LabelsOf(slots[1..])
  }

  /** `rename_map`, built entry by entry: a later entry for the same
      column replaces an earlier one. */
  function RenameMap(slots: seq<(string, string)>): map<string, string>
    ensures forall i :: 0 <= i < |slots| ==> slots[i].0 in RenameMap(slots)
  {
    if |slots| == 0 then map[]
    else RenameMap(slots[..|slots| - 1])[slots[|slots| - 1].0 := slots[|slots| - 1].1]
  }

  /** `display_cols`. */
  function DisplayColumns(b: Bindings): seq<string> {
    ColumnsOf(Slots(Sources(b), Labels))
  }

  /** The header of the details table after renaming. */
  function DisplayHeaders(b: Bindings): (r: seq<string>)
    ensures |r| == |DisplayColumns(b)|
  {
    var slots := Slots(Sources(b), Labels);
    var m := RenameMap(slots);
    seq(|slots|, i requires 0 <= i < |slots| => m[slots[i].0])
  }

  /** The labels of the bound fields, in the fixed order. */
  function BoundLabels(b: Bindings): seq<string> {
    LabelsOf(Slots(Sources(b), Labels))
  }

  /** The shown labels are the fixed labels with the unbound fields left
      out, in the fixed order. */
  lemma {:induction false} SlotsAreBoundLabels(src: seq<Option<string>>, labels: seq<string>)
    requires |src| == |labels|
    ensures IsSubsequence(LabelsOf(Slots(src, labels)), labels)
  {
    if |src| > 0 {
      SlotsAreBoundLabels(src[1..], labels[1..]);
      var rest := LabelsOf(Slots(src[1..], labels[1..]));
      var all := LabelsOf(Slots(src, labels));
      if src[0].Some? {
        assert Slots(src, labels) == [(src[0].value, labels[0])] + Slots(src[1..], labels[1..]);
        assert all == [labels[0]] + rest;
        assert all[1..] == rest;
      } else {
        assert Slots(src, labels) == Slots(src[1..], labels[1..]);
        if |all| > 0 {
          assert IsSubsequence(all, labels[1..]);
        }
      }
    }
  }

  /** With distinct labels, a label is shown exactly when its field is bound. */
  lemma {:induction false} ShownIffBound(src: seq<Option<string>>, labels: seq<string>, i: int)
    requires |src| == |labels| && 0 <= i < |src|
    requires forall j, k :: 0 <= j < k < |labels| ==> labels[j] != labels[k]
    ensures labels[i] in LabelsOf(Slots(src, labels)) <==> src[i].Some?
  {
    var head: seq<(string, string)> := if src[0].Some? then [(src[0].value, labels[0])] else [];
    var rest := Slots(src[1..], labels[1..]);
    assert Slots(src, labels) == head + rest;
    assert LabelsOf(Slots(src, labels)) == LabelsOf(head) + LabelsOf(rest) by {
      LabelsOfAppend(head, rest);
    }
    if i == 0 {
      if |rest| > 0 {
        NotShownOutside(src[1..], labels[1..], labels[0]);
      } else {
        assert LabelsOf(rest) == [];
      }
    } else {
      ShownIffBound(src[1..], labels[1..], i - 1);
      assert labels[i] == labels[1..][i - 1];
      assert labels[i] != labels[0];
    }
  }

  lemma {:induction false} LabelsOfAppend(a: seq<(string, string)>, b: seq<(string, string)>)
    ensures LabelsOf(a + b) == LabelsOf(a) + LabelsOf(b)
  {
  }

  /** A label that is not among the fixed labels is never shown. */
  lemma {:induction false} NotShownOutside(src: seq<Option<string>>, labels: seq<string>, x: string)
    requires |src| == |labels| && x !in labels
    ensures x !in LabelsOf(Slots(src, labels))
  {
    SlotsAreBoundLabels(src, labels);
    SubsequenceMembers(LabelsOf(Slots(src, labels)), labels);
  }

  /** With the shown columns pairwise distinct, every column keeps its own
      label, so the header is exactly the bound labels in fixed order. */
  lemma DistinctColumnsKeepLabels(b: Bindings)
    requires forall i, j :: 0 <= i < j < |DisplayColumns(b)| ==> DisplayColumns(b)[i] != DisplayColumns(b)[j]
    ensures DisplayHeaders(b) == BoundLabels(b)
  {
    var slots := Slots(Sources(b), Labels);
    assert forall j :: 0 <= j < |slots| ==> DisplayColumns(b)[j] == slots[j].0;
    forall i | 0 <= i < |slots|
      ensures RenameMap(slots)[slots[i].0] == slots[i].1
    {
      RenameMapLookup(slots, i);
    }
  }

  /** In a rename map built from pairs with distinct columns, each column
      maps to its own label. */
  lemma {:induction false} RenameMapLookup(slots: seq<(string, string)>, i: int)
    requires 0 <= i < |slots|
    requires forall j, k :: 0 <= j < k < |slots| ==> slots[j].0 != slots[k].0
    ensures RenameMap(slots)[slots[i].0] == slots[i].1
    decreases |slots|
  {
    var n := |slots| - 1;
    if i < n {
      RenameMapLookup(slots[..n], i);
    }
  }

  /** With all six fields bound to distinct columns, the table shows
      Semester, Date, Performer, Instrument, Composer, Piece. */
  lemma AllBoundHeaders(b: Bindings)
    requires b.semester.Some? && b.date.Some? && b.performer.Some?
    requires b.instrument.Some? && b.composer.Some? && b.piece.Some?
    requires forall i, j :: 0 <= i < j < |DisplayColumns(b)| ==> DisplayColumns(b)[i] != DisplayColumns(b)[j]
    ensures DisplayHeaders(b) == Labels
  {
    DistinctColumnsKeepLabels(b);
    AllSlots(Sources(b), Labels);
  }

  /** When every field is bound, every label is shown. */
  lemma {:induction false} AllSlots(src: seq<Option<string>>, labels: seq<string>)
    requires |src| == |labels|
    requires forall i :: 0 <= i < |src| ==> src[i].Some?
    ensures LabelsOf(Slots(src, labels)) == labels
  {
    if |src| > 0 {
      AllSlots(src[1..], labels[1..]);
      assert Slots(src, labels) == [(src[0].value, labels[0])] + Slots(src[1..], labels[1..]);
      LabelsOfAppend([(src[0].value, labels[0])], Slots(src[1..], labels[1..]));
    }
  }
}

=== FILE: ordering.dfy ===
/** The order pandas uses when it sorts a table by several columns: keys
    compared column by column, numbers by value, text by code point, and
    missing values (NaN) after every present value. */
module Ordering {
  import opened Text

  /** One sort-key cell. */
  datatype Part = Num(n: int) | Str(s: string) | Nan

  predicate PartLt(a: Part, b: Part) {
    match (a, b)
    case (Nan, _) => false
    case (_, Nan) => true
    case (Num(x), Num(y)) => x < y
    case (Num(_), Str(_)) => true
    case (Str(_), Num(_)) => false
    case (Str(x), Str(y)) => StrLt(x, y)
  }

  lemma PartLtIrreflexive(a: Part)
    ensures !PartLt(a, a)
  {
    if a.Str? {
      StrLtIrreflexive(a.s);
    }
  }

  lemma PartLtTrichotomy(a: Part, b: Part)
    ensures a == b || PartLt(a, b) || PartLt(b, a)
  {
    if a.Str? && b.Str? {
      StrLtTrichotomy(a.s, b.s);
    }
  }

  lemma PartLtAsymmetric(a: Part, b: Part)
    ensures !(PartLt(a, b) && PartLt(b, a))
  {
    if a.Str? && b.Str? {
      StrLtAsymmetric(a.s, b.s);
    }
  }

  lemma PartLtTransitive(a: Part, b: Part, c: Part)
    requires PartLt(a, b) && PartLt(b, c)
    ensures PartLt(a, c)
  {
    if a.Str? && b.Str? && c.Str? {
      StrLtTransitive(a.s, b.s, c.s);
    }
  }

  /** A full sort key: one part per sort column. */
  type Key = seq<Part>

  /** Lexicographic order on keys. */
  predicate KeyLt(a: Key, b: Key)
    decreases |a|
  {
    if |a| == 0 then |b| > 0
    else if |b| == 0 then false
    else PartLt(a[0], b[0]) || (a[0] == b[0] && KeyLt(a[1..], b[1..]))
  }

  predicate KeyLe(a: Key, b: Key) {
    !KeyLt(b, a)
  }

  lemma {:induction false} KeyLtIrreflexive(a: Key)
    ensures !KeyLt(a, a)
    decreases |a|
  {
    if |a| > 0 {
      PartLtIrreflexive(a[0]);
      KeyLtIrreflexive(a[1..]);
    }
  }

  lemma {:induction false} KeyLtTrichotomy(a: Key, b: Key)
    ensures a == b || KeyLt(a, b) || KeyLt(b, a)
    decreases |a|
  {
    if |a| > 0 && |b| > 0 {
      PartLtTrichotomy(a[0], b[0]);
      if a[0] == b[0] {
        KeyLtTrichotomy(a[1..], b[1..]);
        if a[1..] == b[1..] {
          assert a == [a[0]] + a[1..] && b == [b[0]] + b[1..];
        }
      }
    }
  }

  lemma {:induction false} KeyLtAsymmetric(a: Key, b: Key)
    ensures !(KeyLt(a, b) && KeyLt(b, a))
    decreases |a|
  {
    if |a| > 0 && |b| > 0 {
      PartLtAsymmetric(a[0], b[0]);
      PartLtIrreflexive(a[0]);
      if a[0] == b[0] {
        KeyLtAsymmetric(a[1..], b[1..]);
      }
    }
  }

  lemma {:induction false} KeyLtTransitive(a: Key, b: Key, c: Key)
    requires KeyLt(a, b) && KeyLt(b, c)
    ensures KeyLt(a, c)
    decreases |a|
  {
    if |a| > 0 {
      if PartLt(a[0], b[0]) && PartLt(b[0], c[0]) {
        PartLtTransitive(a[0], b[0], c[0]);
      } else if a[0] == b[0] && b[0] == c[0] {
        KeyLtTransitive(a[1..], b[1..], c[1..]);
      }
    }
  }

  /** `KeyLe` is "less than or equal to". */
  lemma KeyLeIsLtOrEq(a: Key, b: Key)
    ensures KeyLe(a, b) <==> KeyLt(a, b) || a == b
  {
    KeyLtTrichotomy(a, b);
    KeyLtAsymmetric(a, b);
    KeyLtIrreflexive(a);
  }

  lemma KeyLtLeTransitive(a: Key, b: Key, c: Key)
    requires KeyLt(a, b) && KeyLe(b, c)
    ensures KeyLt(a, c)
  {
    KeyLeIsLtOrEq(b, c);
    if KeyLt(b, c) {
      KeyLtTransitive(a, b, c);
    }
  }
}

=== FILE: records.dfy ===
/** One performance record after column resolution (app.py:55-92), and the
    display format of its date (app.py:83-88). */
module Records {
  import opened Wrappers

  /** A calendar date as produced by `pd.to_datetime`. */
  datatype Date = Date(year: int, month: int, day: int)

  predicate IsLeapYear(y: int) {
    (y % 4 == 0 && y % 100 != 0) || y % 400 == 0
  }

  function DaysInMonth(y: int, m: int): int
    requires 1 <= m <= 12
  {
    if m == 2 then (if IsLeapYear(y) then 29 else 28)
    else if m == 4 || m == 6 || m == 9 || m == 11 then 30
    else 31
  }

  /** A real calendar date with a four-digit year; pandas timestamps lie
      between the years 1677 and 2262. */
  predicate ValidDate(d: Date) {
    1000 <= d.year <= 9999 && 1 <= d.month <= 12 && 1 <= d.day <= DaysInMonth(d.year, d.month)
  }

  type CalendarDate = d: Date | ValidDate(d) witness Date(2025, 1, 5)

  /** `a` is an earlier day than `b`: by year, then month, then day. */
  predicate DateBefore(a: Date, b: Date) {
    a.year < b.year || (a.year == b.year && (a.month < b.month || (a.month == b.month && a.day < b.day)))
  }

  /** A calendar date as one number, YYYYMMDD. */
  function DayNumber(d: CalendarDate): int {
    d.year * 10000 + d.month * 100 + d.day
  }

  /** Comparing day numbers is comparing dates. */
  lemma DayNumberOrder(a: CalendarDate, b: CalendarDate)
    ensures DateBefore(a, b) <==> DayNumber(a) < DayNumber(b)
    ensures DayNumber(a) == DayNumber(b) <==> a == b
  {
  }

  /** One row of the table. Each field holds the cell of the column bound
      to that logical field, None when the cell is missing (NaN / NaT);
      the field of an unbound column is never consulted. */
  datatype Row = Row(
    semester: Option<string>,
    academicYear: Option<string>,
    concert: Option<int>,
    index: Option<int>,
    performer: Option<string>,
    performanceType: Option<string>,
    instrument: Option<string>,
    composer: Option<string>,
    piece: Option<string>,
    date: Option<CalendarDate>,
    category: Option<int>,
    status: Option<int>)

  // ---------------------------------------------------------------------
  // Decimal numerals
  // ---------------------------------------------------------------------

  predicate IsDigit(c: char) {
    '0' <= c <= '9'
  }

  predicate AllDigits(s: string) {
    forall i :: 0 <= i < |s| ==> IsDigit(s[i])
  }

  function DigitChar(d: int): char
    requires 0 <= d <= 9
  {
    ('0' as int + d) as char
  }

  /** `str(n)` for a natural number: decimal digits, no leading zero. */
  function NatToString(n: nat): (r: string)
    ensures |r| > 0 && AllDigits(r)
    ensures n > 0 ==> r[0] != '0'
    decreases n
  {
    if n < 10 then [DigitChar(n)] else NatToString(n / 10) + [DigitChar(n % 10)]
  }

  /** The value of a string of decimal digits. */
  function ParseNat(s: string): nat
    requires AllDigits(s)
  {
    if |s| == 0 then 0 else 10 * ParseNat(s[..|s| - 1]) + (s[|s| - 1] as int - '0' as int)
  }

  /** Reading back a printed number gives the number. */
  lemma {:induction false} ParseNatToString(n: nat)
    ensures ParseNat(NatToString(n)) == n
    decreases n
  {
    if n >= 10 {
      var s := NatToString(n);
      assert s[..|s| - 1] == NatToString(n / 10);
      ParseNatToString(n / 10);
    }
  }

  /** Numbers from 1000 to 9999 print with exactly four digits. */
  lemma FourDigitYear(n: nat)
    requires 1000 <= n <= 9999
    ensures |NatToString(n)| == 4
  {
    assert NatToString(n) == NatToString(n / 10) + [DigitChar(n % 10)];
    assert NatToString(n / 10) == NatToString(n / 100) + [DigitChar((n / 10) % 10)];
    assert NatToString(n / 100) == NatToString(n / 1000) + [DigitChar((n / 100) % 10)];
  }

  // ---------------------------------------------------------------------
  // Date display
  // ---------------------------------------------------------------------

  /** `%b` in the C locale. */
  function MonthAbbrev(m: int): (r: string)
    requires 1 <= m <= 12
    ensures |r| == 3
  {
    ["Jan", "Feb", "Mar", "Apr", "May", "Jun", "Jul", "Aug", "Sep", "Oct", "Nov", "Dec"][m - 1]
  }

  /** The month number of a three-letter abbreviation, 0 when it is none. */
  function MonthNumber(s: string): int {
    if s == "Jan" then 1 else if s == "Feb" then 2 else if s == "Mar" then 3
    else if s == "Apr" then 4 else if s == "May" then 5 else if s == "Jun" then 6
    else if s == "Jul" then 7 else if s == "Aug" then 8 else if s == "Sep" then 9
    else if s == "Oct" then 10 else if s == "Nov" then 11 else if s == "Dec" then 12
    else 0
  }

  lemma MonthNumberAbbrev(m: int)
    requires 1 <= m <= 12
    ensures MonthNumber(MonthAbbrev(m)) == m
  {
  }

  /** The `date_clean` value: `"<Mon>. <day>, <year>"` with the day
      without leading zero, or the empty string for a missing date. */
  function FormatDate(d: Option<CalendarDate>): (r: string)
    ensures d.None? <==> r == ""
    ensures d.Some? ==> |r| >= 12 && r[3..5] == ". " && r[|r| - 6..|r| - 4] == ", "
    ensures d.Some? ==> r[5] != '0'
  {
    match d
    case None => ""
    case Some(dt) =>
      FourDigitYear(dt.year);
      MonthAbbrev(dt.month) + ". " + NatToString(dt.day) + ", " + NatToString(dt.year)
  }

  /** Reads a display date back: month abbreviation, ". ", day digits
      without a leading zero, ", ", four year digits. */
  function ParseDisplayDate(s: string): Option<Date> {
    if |s| < 12 || s[3..5] != ". " || s[|s| - 6..|s| - 4] != ", " then None
    else
      var m := MonthNumber(s[..3]);
      var day := s[5..|s| - 6];
      var year := s[|s| - 4..];
      if m == 0 || !AllDigits(day) || day[0] == '0' || !AllDigits(year) then None
      else Some(Date(ParseNat(year), m, ParseNat(day)))
  }

  /** Every displayed date reads back as the date it came from, so two
      different dates never share a display string. */
  lemma {:induction false} ParseFormatDate(d: CalendarDate)
    ensures ParseDisplayDate(FormatDate(Some(d))) == Some(d)
  {
    var mon := MonthAbbrev(d.month);
    var dd := NatToString(d.day);
    var yy := NatToString(d.year);
    FourDigitYear(d.year);
    var s := FormatDate(Some(d));
    assert s == mon + ". " + dd + ", " + yy;
    assert s[..3] == mon;
    assert s[5..|s| - 6] == dd;
    assert s[|s| - 4..] == yy;
    MonthNumberAbbrev(d.month);
    ParseNatToString(d.day);
    ParseNatToString(d.year);
  }

  /** The display of 5 January 2025. */
  lemma FormatDateExample()
    ensures FormatDate(Some(Date(2025, 1, 5))) == "Jan. 5, 2025"
  {
    assert NatToString(2025) == "2025" by {
      assert NatToString(2) == "2";
      assert NatToString(20) == "20";
      assert NatToString(202) == "202";
    }
  }

  /** The day is never zero-padded: a padded day is not a display date. */
  lemma PaddedDayRejected()
    ensures ParseDisplayDate("Jan. 05, 2025") == None
  {
    var s := "Jan. 05, 2025";
    assert s[3..5] == ". " && s[|s| - 6..|s| - 4] == ", ";
    assert s[5..|s| - 6] == "05";
  }
}

=== FILE: seqs.dfy ===
/** Sequence operations shared by the dashboard engine: order-preserving
    selection (a boolean mask applied to a table) and removal of repeated
    entries (`drop_duplicates`). */
module Seqs {

  /** `a` is obtained from `b` by deleting entries, keeping the order. */
  predicate IsSubsequence<T(==)>(a: seq<T>, b: seq<T>)
    decreases |b|
  {
    if |a| == 0 then true
    else if |b| == 0 then false
    else (a[0] == b[0] && IsSubsequence(a[1..], b[1..])) || IsSubsequence(a, b[1..])
  }

  /** The entries of `s` satisfying `p`, in their original order: the rows
      kept when a boolean mask is applied to a table. */
  function Where<T>(s: seq<T>, p: T -> bool): (r: seq<T>)
    ensures |r| <= |s|
    ensures forall i :: 0 <= i < |r| ==> p(r[i])
  {
    if |s| == 0 then []
    else
      var rest := Where(s[1..], p);
      if p(s[0]) then [s[0]] + rest else rest
  }

  /** A subsequence holds only entries of the sequence it was taken from. */
  lemma {:induction false} SubsequenceMembers<T>(a: seq<T>, b: seq<T>)
    requires IsSubsequence(a, b)
    ensures forall x :: x in a ==> x in b
    decreases |b|
  {
    if |a| > 0 {
      if a[0] == b[0] && IsSubsequence(a[1..], b[1..]) {
        SubsequenceMembers(a[1..], b[1..]);
        assert forall x :: x in a ==> x == a[0] || x in a[1..];
      } else {
        SubsequenceMembers(a, b[1..]);
      }
    }
  }

  /** Masking keeps every entry satisfying the mask and invents none. */
  lemma {:induction false} WhereMembers<T>(s: seq<T>, p: T -> bool)
    ensures multiset(Where(s, p)) <= multiset(s)
    ensures forall x :: x in s && p(x) ==> x in Where(s, p)
  {
    if |s| > 0 {
      WhereMembers(s[1..], p);
      assert s == [s[0]] + s[1..];
    }
  }

  /** Masking keeps the table order: the result is a subsequence. */
  lemma {:induction false} WhereIsSubsequence<T>(s: seq<T>, p: T -> bool)
    ensures IsSubsequence(Where(s, p), s)
  {
    if |s| > 0 {
      WhereIsSubsequence(s[1..], p);
      var r := Where(s, p);
      if p(s[0]) {
        assert r[1..] == Where(s[1..], p);
      }
    }
  }

  /** Masking works row by row: masking a concatenation is concatenating
      the masked parts. */
  lemma {:induction false} WhereAppend<T>(a: seq<T>, b: seq<T>, p: T -> bool)
    ensures Where(a + b, p) == Where(a, p) + Where(b, p)
  {
    if |a| > 0 {
      assert (a + b)[1..] == a[1..] + b;
      WhereAppend(a[1..], b, p);
    } else {
      assert a + b == b;
    }
  }

  /** Two masks that agree on every entry select the same entries. */
  lemma {:induction false} WhereCongruent<T>(s: seq<T>, p: T -> bool, q: T -> bool)
    requires forall i :: 0 <= i < |s| ==> p(s[i]) == q(s[i])
    ensures Where(s, p) == Where(s, q)
  {
    if |s| > 0 {
      WhereCongruent(s[1..], p, q);
    }
  }

  /** An all-true mask keeps every entry. */
  lemma {:induction false} WhereAll<T>(s: seq<T>, p: T -> bool)
    requires forall i :: 0 <= i < |s| ==> p(s[i])
    ensures Where(s, p) == s
  {
    if |s| > 0 {
      WhereAll(s[1..], p);
    }
  }

  /** An all-false mask keeps nothing. */
  lemma {:induction false} WhereNone<T>(s: seq<T>, p: T -> bool)
    requires forall i :: 0 <= i < |s| ==> !p(s[i])
    ensures Where(s, p) == []
  {
    if |s| > 0 {
      WhereNone(s[1..], p);
    }
  }

  /** Applying two masks one after the other is applying their conjunction. */
  lemma {:induction false} WhereWhere<T>(s: seq<T>, p: T -> bool, q: T -> bool, pq: T -> bool)
    requires forall x :: pq(x) == (p(x) && q(x))
    ensures Where(Where(s, p), q) == Where(s, pq)
  {
    if |s| > 0 {
      WhereWhere(s[1..], p, q, pq);
      if p(s[0]) {
        assert Where(s, p) == [s[0]] + Where(s[1..], p);
        assert Where(Where(s, p), q) == (if q(s[0]) then [s[0]] else []) + Where(Where(s[1..], p), q);
      }
    }
  }

  /** The entries of `s` with later repetitions removed, first occurrences
      kept in order (`drop_duplicates`). */
  function Dedup<T(==)>(s: seq<T>): (r: seq<T>)
    ensures |r| <= |s|
    ensures forall i :: 0 <= i < |r| ==> r[i] in s
    ensures forall i :: 0 <= i < |s| ==> s[i] in r
    ensures forall i, j :: 0 <= i < j < |r| ==> r[i] != r[j]
  {
    if |s| == 0 then []
    else
      var d := Dedup(s[..|s| - 1]);
      assert s == s[..|s| - 1] + [s[|s| - 1]];
      if s[|s| - 1] in d then d else d + [s[|s| - 1]]
  }

  /** A sequence without repetitions has as many entries as distinct values. */
  lemma {:induction false} DistinctCardinality<T>(s: seq<T>)
    requires forall i, j :: 0 <= i < j < |s| ==> s[i] != s[j]
    ensures |set x | x in s| == |s|
  {
    if |s| > 0 {
      var t := s[..|s| - 1];
      DistinctCardinality(t);
      assert s == t + [s[|s| - 1]];
      assert (set x | x in s) == (set x | x in t) + {s[|s| - 1]};
      assert s[|s| - 1] !in t;
    }
  }

  /** Removing repetitions leaves one entry per distinct value. */
  lemma DedupCountsDistinct<T>(s: seq<T>)
    ensures |Dedup(s)| == |set x | x in s|
  {
    DistinctCardinality(Dedup(s));
    assert (set x | x in Dedup(s)) == (set x | x in s);
  }

  // ---------------------------------------------------------------------
  // Counting
  // ---------------------------------------------------------------------

  /** How many entries satisfy `p`. */
  function Count<T>(s: seq<T>, p: T -> bool): (n: nat)
    ensures n <= |s|
  {
    if |s| == 0 then 0 else (if p(s[0]) then 1 else 0) + Count(s[1..], p)
  }

  lemma {:induction false} CountAppend<T>(a: seq<T>, b: seq<T>, p: T -> bool)
    ensures Count(a + b, p) == Count(a, p) + Count(b, p)
  {
    if |a| > 0 {
      assert (a + b)[1..] == a[1..] + b;
      CountAppend(a[1..], b, p);
    } else {
      assert a + b == b;
    }
  }

  /** Counts depend only on which entries occur and how often, not on
      their order. */
  lemma {:induction false} CountPermutation<T>(a: seq<T>, b: seq<T>, p: T -> bool)
    requires multiset(a) == multiset(b)
    ensures Count(a, p) == Count(b, p)
    decreases |a|
  {
    if |a| > 0 {
      assert a[0] in multiset(b);
      var k :| 0 <= k < |b| && b[k] == a[0];
      var b' := b[..k] + b[k + 1..];
      RemoveAt(b, k, p);
      assert a == [a[0]] + a[1..];
      assert multiset(a[1..]) == multiset(a) - multiset{a[0]};
      CountPermutation(a[1..], b', p);
    } else {
      assert |b| == |multiset(b)|;
    }
  }

  /** Taking one entry out of a sequence removes one copy from its
      multiset and its count from the count. */
  lemma {:induction false} RemoveAt<T>(b: seq<T>, k: int, p: T -> bool)
    requires 0 <= k < |b|
    ensures multiset(b[..k] + b[k + 1..]) == multiset(b) - multiset{b[k]}
    ensures Count(b, p) == Count(b[..k] + b[k + 1..], p) + (if p(b[k]) then 1 else 0)
  {
    assert b == b[..k] + [b[k]] + b[k + 1..];
    CountAppend(b[..k] + [b[k]], b[k + 1..], p);
    CountAppend(b[..k], [b[k]], p);
    CountAppend(b[..k], b[k + 1..], p);
  }

  /** Two masks that never hold together count, summed, the entries of
      their union. */
  lemma {:induction false} CountDisjoint<T>(s: seq<T>, p: T -> bool, q: T -> bool, pq: T -> bool)
    requires forall i :: 0 <= i < |s| ==> pq(s[i]) == (p(s[i]) || q(s[i])) && !(p(s[i]) && q(s[i]))
    ensures Count(s, p) + Count(s, q) == Count(s, pq)
  {
    if |s| > 0 {
      CountDisjoint(s[1..], p, q, pq);
    }
  }

  /** A mask and its negation together count every entry. */
  lemma {:induction false} CountComplement<T>(s: seq<T>, p: T -> bool, q: T -> bool)
    requires forall i :: 0 <= i < |s| ==> q(s[i]) == !p(s[i])
    ensures Count(s, p) + Count(s, q) == |s|
  {
    if |s| > 0 {
      CountComplement(s[1..], p, q);
    }
  }
}

=== FILE: session.dfy ===
/** The sidebar's filter state (app.py:98-153): checkbox values kept in a
    key-value session store, the "Clear All Filters" callback, and the
    rule that checking any semester disables the academic-year boxes and
    vice versa. */
module Session {
  import opened Text
  import opened Seqs

  /** A value held in the session store. */
  datatype Value = Flag(on: bool) | Items(items: seq<string>) | Other(text: string)

  type State = map<string, Value>

  /** The key holds a checked box; an absent key reads as unchecked. */
  predicate Checked(s: State, key: string) {
    key in s && s[key] == Flag(true)
  }

  function CheckedUnder(s: State, prefix: string): string -> bool {
    (o: string) => Checked(s, prefix + o)
  }

  /** The options whose box `prefix + option` is checked, in option order. */
  function Selected(s: State, prefix: string, opts: seq<string>): (r: seq<string>)
    ensures forall i :: 0 <= i < |r| ==> Checked(s, prefix + r[i])
    ensures forall i :: 0 <= i < |opts| && Checked(s, prefix + opts[i]) ==> opts[i] in r
    ensures IsSubsequence(r, opts)
  {
    WhereMembers(opts, CheckedUnder(s, prefix));
    WhereIsSubsequence(opts, CheckedUnder(s, prefix));
    Where(opts, CheckedUnder(s, prefix))
  }

  /** Resets a key the way `clear_all_filters` does, or leaves it. */
  function ClearedValue(k: string, v: Value): Value {
    if StartsWith(k, "AY_") || StartsWith(k, "Sem_") then Flag(false)
    else if k == "Performance Type" then Items([])
    else v
  }

  /** `clear_all_filters`: every academic-year and semester box unchecked,
      the "Performance Type" entry emptied, every other key unchanged. */
  function ClearAllFilters(s: State): (r: State)
    ensures r.Keys == s.Keys
    ensures forall k :: k in r && (StartsWith(k, "AY_") || StartsWith(k, "Sem_")) ==> r[k] == Flag(false)
    ensures "Performance Type" in s ==> r["Performance Type"] == Items([])
    ensures forall k :: k in s && !StartsWith(k, "AY_") && !StartsWith(k, "Sem_") && k != "Performance Type"
                        ==> r[k] == s[k]
  {
    assert "Performance Type"[0] == 'P';
    map k | k in s :: ClearedValue(k, s[k])
  }

  /** After clearing, no academic year and no semester is selected, whatever
      the options are. */
  lemma ClearAllUnselects(s: State, ayOpts: seq<string>, semOpts: seq<string>)
    ensures Selected(ClearAllFilters(s), "AY_", ayOpts) == []
    ensures Selected(ClearAllFilters(s), "Sem_", semOpts) == []
  {
    var r := ClearAllFilters(s);
    forall i | 0 <= i < |ayOpts|
      ensures !CheckedUnder(r, "AY_")(ayOpts[i])
    {
      assert StartsWith("AY_" + ayOpts[i], "AY_");
    }
    forall i | 0 <= i < |semOpts|
      ensures !CheckedUnder(r, "Sem_")(semOpts[i])
    {
      assert StartsWith("Sem_" + semOpts[i], "Sem_");
    }
    WhereNone(ayOpts, CheckedUnder(r, "AY_"));
    WhereNone(semOpts, CheckedUnder(r, "Sem_"));
  }

  /** Clearing twice is clearing once. */
  lemma ClearAllIdempotent(s: State)
    ensures ClearAllFilters(ClearAllFilters(s)) == ClearAllFilters(s)
  {
  }

  /** Clearing leaves a checked performance-type box checked: the type
      boxes are stored under "PT_" keys, which the callback never visits. */
  lemma ClearAllKeepsTypeBoxes()
    ensures Selected(ClearAllFilters(map["PT_Recital" := Flag(true)]), "PT_", ["Recital"]) == ["Recital"]
  {
    var s := map["PT_Recital" := Flag(true)];
    assert "PT_Recital"[0] == 'P';
    assert ClearAllFilters(s)["PT_Recital"] == Flag(true);
    assert "PT_" + "Recital" == "PT_Recital";
  }

  /** In general: clearing never changes which performance types are
      selected, whatever the session and the options. */
  lemma ClearAllKeepsTypeSelection(s: State, ptOpts: seq<string>)
    ensures Selected(ClearAllFilters(s), "PT_", ptOpts) == Selected(s, "PT_", ptOpts)
  {
    var r := ClearAllFilters(s);
    forall i | 0 <= i < |ptOpts|
      ensures CheckedUnder(r, "PT_")(ptOpts[i]) == CheckedUnder(s, "PT_")(ptOpts[i])
    {
      var k := "PT_" + ptOpts[i];
      assert k[0] == 'P' && k[1] == 'T';
      assert "Performance Type"[1] == 'e';
      assert !StartsWith(k, "AY_") && !StartsWith(k, "Sem_") && k != "Performance Type";
    }
    WhereCongruent(ptOpts, CheckedUnder(r, "PT_"), CheckedUnder(s, "PT_"));
  }

  /** Resets a key as the clear button evidently intends: the type boxes too. */
  function IntendedClearedValue(k: string, v: Value): Value {
    if StartsWith(k, "AY_") || StartsWith(k, "Sem_") || StartsWith(k, "PT_") then Flag(false)
    else if k == "Performance Type" then Items([])
    else v
  }

  /** A key written by one of the three filter groups. */
  predicate IsFilterKey(k: string) {
    StartsWith(k, "AY_") || StartsWith(k, "Sem_") || StartsWith(k, "PT_") || k == "Performance Type"
  }

  /** "Clear All Filters" as documented: academic-year, semester and
      performance-type boxes all unchecked; no other key touched. */
  function ClearAllFiltersIntended(s: State): (r: State)
    ensures r.Keys == s.Keys
    ensures forall k :: k in s && !IsFilterKey(k) ==> r[k] == s[k]
    ensures forall k :: k in s && StartsWith(k, "PT_") ==> r[k] == Flag(false)
    ensures forall k :: k in s && (StartsWith(k, "AY_") || StartsWith(k, "Sem_")) ==> r[k] == Flag(false)
    ensures "Performance Type" in s ==> r["Performance Type"] == Items([])
  {
    assert "Performance Type"[0] == 'P' && "Performance Type"[1] == 'e';
    assert !StartsWith("Performance Type", "PT_") by {
      assert "Performance Type"[..3] != "PT_" by {
        assert "Performance Type"[..3][1] == 'e';
      }
    }
    map k | k in s :: IntendedClearedValue(k, s[k])
  }

  /** After the intended clear, nothing is selected in any of the three
      checkbox groups. */
  lemma IntendedClearUnselects(s: State, ayOpts: seq<string>, semOpts: seq<string>, ptOpts: seq<string>)
    ensures Selected(ClearAllFiltersIntended(s), "AY_", ayOpts) == []
    ensures Selected(ClearAllFiltersIntended(s), "Sem_", semOpts) == []
    ensures Selected(ClearAllFiltersIntended(s), "PT_", ptOpts) == []
  {
    var r := ClearAllFiltersIntended(s);
    forall i | 0 <= i < |ayOpts|
      ensures !CheckedUnder(r, "AY_")(ayOpts[i])
    {
      assert StartsWith("AY_" + ayOpts[i], "AY_");
    }
    forall i | 0 <= i < |semOpts|
      ensures !CheckedUnder(r, "Sem_")(semOpts[i])
    {
      assert StartsWith("Sem_" + semOpts[i], "Sem_");
    }
    forall i | 0 <= i < |ptOpts|
      ensures !CheckedUnder(r, "PT_")(ptOpts[i])
    {
      assert StartsWith("PT_" + ptOpts[i], "PT_");
    }
    WhereNone(ayOpts, CheckedUnder(r, "AY_"));
    WhereNone(semOpts, CheckedUnder(r, "Sem_"));
    WhereNone(ptOpts, CheckedUnder(r, "PT_"));
  }

  // ---------------------------------------------------------------------
  // Mutually disabling checkbox groups
  // ---------------------------------------------------------------------

  /** The academic-year boxes are disabled while any semester is checked. */
  predicate YearBoxesDisabled(s: State, semOpts: seq<string>) {
    |Selected(s, "Sem_", semOpts)| > 0
  }

  /** The semester boxes are disabled while any academic year is checked. */
  predicate SemesterBoxesDisabled(s: State, ayOpts: seq<string>) {
    |Selected(s, "AY_", ayOpts)| > 0
  }

  /** A checkbox of the sidebar. */
  datatype Box = YearBox(year: string) | SemesterBox(semester: string) | TypeBox(kind: string)

  function BoxKey(box: Box): string {
    match box
    case YearBox(o) => "AY_" + o
    case SemesterBox(o) => "Sem_" + o
    case TypeBox(o) => "PT_" + o
  }

  predicate Disabled(s: State, box: Box, ayOpts: seq<string>, semOpts: seq<string>) {
    match box
    case YearBox(_) => YearBoxesDisabled(s, semOpts)
    case SemesterBox(_) => SemesterBoxesDisabled(s, ayOpts)
    case TypeBox(_) => false
  }

  /** A user click: an enabled box flips, a disabled one does not react. */
  function Click(s: State, box: Box, ayOpts: seq<string>, semOpts: seq<string>): State {
    if Disabled(s, box, ayOpts, semOpts) then s
    else s[BoxKey(box) := Flag(!Checked(s, BoxKey(box)))]
  }

  /** Academic years and semesters are never selected at the same time. */
  predicate Exclusive(s: State, ayOpts: seq<string>, semOpts: seq<string>) {
    !(|Selected(s, "AY_", ayOpts)| > 0 && |Selected(s, "Sem_", semOpts)| > 0)
  }

  /** Writing a key that no option's box uses leaves the selection alone. */
  lemma {:induction false} SelectedUnaffected(s: State, key: string, v: Value, prefix: string, opts: seq<string>)
    requires forall i :: 0 <= i < |opts| ==> prefix + opts[i] != key
    ensures Selected(s[key := v], prefix, opts) == Selected(s, prefix, opts)
  {
    WhereCongruent(opts, CheckedUnder(s[key := v], prefix), CheckedUnder(s, prefix));
  }

  /** Any click from a state without both groups selected leads to such a
      state again: the disabling rule keeps the two facets exclusive. */
  lemma ClickKeepsExclusive(s: State, box: Box, ayOpts: seq<string>, semOpts: seq<string>)
    requires Exclusive(s, ayOpts, semOpts)
    ensures Exclusive(Click(s, box, ayOpts, semOpts), ayOpts, semOpts)
  {
    if !Disabled(s, box, ayOpts, semOpts) {
      var key := BoxKey(box);
      var v := Flag(!Checked(s, key));
      match box
      case YearBox(o) =>
        forall i | 0 <= i < |semOpts|
          ensures "Sem_" + semOpts[i] != key
        {
          assert ("Sem_" + semOpts[i])[0] != key[0];
        }
        SelectedUnaffected(s, key, v, "Sem_", semOpts);
      case SemesterBox(o) =>
        forall i | 0 <= i < |ayOpts|
          ensures "AY_" + ayOpts[i] != key
        {
          assert ("AY_" + ayOpts[i])[0] != key[0];
        }
        SelectedUnaffected(s, key, v, "AY_", ayOpts);
      case TypeBox(o) =>
        forall i | 0 <= i < |semOpts|
          ensures "Sem_" + semOpts[i] != key
        {
          assert ("Sem_" + semOpts[i])[0] != key[0];
        }
        forall i | 0 <= i < |ayOpts|
          ensures "AY_" + ayOpts[i] != key
        {
          assert ("AY_" + ayOpts[i])[0] != key[0];
        }
        SelectedUnaffected(s, key, v, "Sem_", semOpts);
        SelectedUnaffected(s, key, v, "AY_", ayOpts);
    }
  }

  /** Clearing establishes the exclusivity. */
  lemma ClearAllExclusive(s: State, ayOpts: seq<string>, semOpts: seq<string>)
    ensures Exclusive(ClearAllFilters(s), ayOpts, semOpts)
  {
    ClearAllUnselects(s, ayOpts, semOpts);
  }
}

=== FILE: sorting.dfy ===
/** The sort block of the dashboard (app.py:228-256): by academic year,
    season (Fall before Spring, anything else last) and index; otherwise by
    display date, concert and index; otherwise by display date alone. */
module Sorting {
  import opened Wrappers
  import opened Text
  import opened Seqs
  import opened Ordering
  import opened Columns
  import opened Records

  datatype SortMode = BySeason | ByDateConcert | ByDate | Unsorted

  /** Which branch of the sort block applies, from the bindings. The date
      branches need the date column, from which `date_clean` is made. */
  function ModeOf(b: Bindings): SortMode {
    if b.academicYear.Some? && b.semester.Some? && b.index.Some? then BySeason
    else if b.date.Some? && b.concert.Some? && b.index.Some? then ByDateConcert
    else if b.date.Some? then ByDate
    else Unsorted
  }

  /** The season code of a semester label, as the ordered Fall/Spring
      category gives it: the leftmost occurrence of either word decides, 0 for Fall, 1
      for Spring, None when neither occurs. */
  function SeasonRank(s: string): Option<int>
    decreases |s|
  {
    if |s| == 0 then None
    else if "Fall" <= s then Some(0)
    else if "Spring" <= s then Some(1)
    else SeasonRank(s[1..])
  }

  /** A label with "Fall" and no "Spring" ranks 0, one with "Spring" and no
      "Fall" ranks 1, one with neither has no rank; a rank is only given
      when its word occurs. A label mentioning both words is ranked by
      whichever occurs first, and is always ranked. */
  lemma {:induction false} SeasonRankSpec(s: string)
    ensures Contains(s, "Fall") && !Contains(s, "Spring") ==> SeasonRank(s) == Some(0)
    ensures !Contains(s, "Fall") && Contains(s, "Spring") ==> SeasonRank(s) == Some(1)
    ensures !Contains(s, "Fall") && !Contains(s, "Spring") ==> SeasonRank(s) == None
    ensures SeasonRank(s) == Some(0) ==> Contains(s, "Fall")
    ensures SeasonRank(s) == Some(1) ==> Contains(s, "Spring")
    ensures Contains(s, "Fall") || Contains(s, "Spring") <==> SeasonRank(s).Some?
    decreases |s|
  {
    if |s| > 0 {
      SeasonRankSpec(s[1..]);
    }
  }

  /** The leftmost match decides: a "Fall" with no "Spring" starting
      before it ranks 0. */
  lemma {:induction false} FallFirstRanksFall(s: string, i: int)
    requires OccursAt(s, "Fall", i)
    requires forall j :: 0 <= j < i ==> !OccursAt(s, "Spring", j)
    ensures SeasonRank(s) == Some(0)
    decreases i
  {
    if "Fall" <= s {
    } else {
      assert i != 0;
      assert !OccursAt(s, "Spring", 0);
      assert !("Spring" <= s);
      NoMatchBefore(s, "Fall", "Spring", i);
      FallFirstRanksFall(s[1..], i - 1);
    }
  }

  /** A "Spring" with no "Fall" starting before it ranks 1. */
  lemma {:induction false} SpringFirstRanksSpring(s: string, i: int)
    requires OccursAt(s, "Spring", i)
    requires forall j :: 0 <= j < i ==> !OccursAt(s, "Fall", j)
    ensures SeasonRank(s) == Some(1)
    decreases i
  {
    assert !("Fall" <= s) by {
      if i > 0 {
        assert !OccursAt(s, "Fall", 0);
      } else {
        assert s[0] == 'S';
      }
    }
    if "Spring" <= s {
    } else {
      assert i != 0;
      NoMatchBefore(s, "Spring", "Fall", i);
      SpringFirstRanksSpring(s[1..], i - 1);
    }
  }

  /** Dropping the first character of a label moves every later match one
      place to the left. */
  lemma NoMatchBefore(s: string, w: string, v: string, i: int)
    requires 0 < i && OccursAt(s, w, i)
    requires forall j :: 0 <= j < i ==> !OccursAt(s, v, j)
    ensures OccursAt(s[1..], w, i - 1)
    ensures forall j :: 0 <= j < i - 1 ==> !OccursAt(s[1..], v, j)
  {
    assert s[1..][i - 1..i - 1 + |w|] == s[i..i + |w|];
    forall j | 0 <= j < i - 1
      ensures !OccursAt(s[1..], v, j)
    {
      assert !OccursAt(s, v, j + 1);
      if j + 1 + |v| <= |s| {
        assert s[1..][j..j + |v|] == s[j + 1..j + 1 + |v|];
      }
    }
  }

  function TextPart(c: Option<string>): Part {
    match c
    case Some(v) => Str(v)
    case None => Nan
  }

  function NumPart(c: Option<int>): Part {
    match c
    case Some(v) => Num(v)
    case None => Nan
  }

  function SeasonPart(c: Option<string>): Part {
    if c.None? then Nan
    else match SeasonRank(c.value)
      case Some(k) => Num(k)
      case None => Nan
  }

  /** The sort key of a row. The date branches sort on the display string
      `date_clean`, which is text ("" for a missing date). */
  function KeyOf(mode: SortMode, r: Row): Key {
    match mode
    case BySeason => [TextPart(r.academicYear), SeasonPart(r.semester), NumPart(r.index)]
    case ByDateConcert => [Str(FormatDate(r.date)), NumPart(r.concert), NumPart(r.index)]
    case ByDate => [Str(FormatDate(r.date))]
    case Unsorted => []
  }

  /** The sort key of each row under `mode`, as a key function. */
  function KeyFn(mode: SortMode): Row -> Key {
    (x: Row) => KeyOf(mode, x)
  }

  /** Every entry's key is at most every later entry's key. */
  predicate Sorted<T>(key: T -> Key, s: seq<T>) {
    forall i, j :: 0 <= i < j < |s| ==> KeyLe(key(s[i]), key(s[j]))
  }

  /** The entries whose key is `k`. */
  function KeyIs<T>(key: T -> Key, k: Key): T -> bool {
    (x: T) => key(x) == k
  }

  /** The entries of `s` with key `k`, in the order of `s`. */
  function WithKey<T>(key: T -> Key, s: seq<T>, k: Key): seq<T> {
    Where(s, KeyIs(key, k))
  }

  /** `x`'s key is at most the key of every entry of `s`. */
  predicate AtMostAll<T>(key: T -> Key, x: T, s: seq<T>) {
    forall i :: 0 <= i < |s| ==> KeyLe(key(x), key(s[i]))
  }

  /** Inserts `x` after every entry whose key is not greater than its own. */
  function InsertAfter<T>(key: T -> Key, x: T, s: seq<T>): seq<T> {
    if |s| == 0 then [x]
    else if KeyLt(key(x), key(s[0])) then [x] + s
    else [s[0]] + InsertAfter(key, x, s[1..])
  }

  /** An entry at most every entry of `s` and at most `x` is at most every
      entry after the insertion. */
  lemma {:induction false} InsertAfterAtMost<T>(key: T -> Key, y: T, x: T, s: seq<T>)
    requires AtMostAll(key, y, s) && KeyLe(key(y), key(x))
    ensures AtMostAll(key, y, InsertAfter(key, x, s))
  {
    if |s| > 0 && !KeyLt(key(x), key(s[0])) {
      InsertAfterAtMost(key, y, x, s[1..]);
    }
  }

  /** Prepending an entry at most every entry keeps a sequence sorted. */
  lemma {:induction false} ConsSorted<T>(key: T -> Key, x: T, s: seq<T>)
    requires AtMostAll(key, x, s) && Sorted(key, s)
    ensures Sorted(key, [x] + s)
  {
    var t := [x] + s;
    forall i, j | 0 <= i < j < |t|
      ensures KeyLe(key(t[i]), key(t[j]))
    {
      assert t[j] == s[j - 1];
      if i > 0 {
        assert t[i] == s[i - 1];
      }
    }
  }

  /** Inserting into a sorted sequence adds exactly `x`. */
  lemma {:induction false} InsertAfterPermutes<T>(key: T -> Key, x: T, s: seq<T>)
    ensures multiset(InsertAfter(key, x, s)) == multiset(s) + multiset{x}
  {
    if |s| > 0 {
      assert s == [s[0]] + s[1..];
      if !KeyLt(key(x), key(s[0])) {
        InsertAfterPermutes(key, x, s[1..]);
      }
    }
  }

  /** A key strictly below the first key of a sorted sequence is at most
      every key in it. */
  lemma {:induction false} BelowHead<T>(key: T -> Key, x: T, s: seq<T>)
    requires Sorted(key, s) && |s| > 0 && KeyLt(key(x), key(s[0]))
    ensures AtMostAll(key, x, s)
    ensures forall j :: 0 <= j < |s| ==> key(s[j]) != key(x)
  {
    forall j | 0 <= j < |s|
      ensures KeyLt(key(x), key(s[j]))
    {
      if j > 0 {
        KeyLtLeTransitive(key(x), key(s[0]), key(s[j]));
      }
    }
    forall j | 0 <= j < |s|
      ensures KeyLe(key(x), key(s[j])) && key(s[j]) != key(x)
    {
      KeyLtAsymmetric(key(x), key(s[j]));
      KeyLtIrreflexive(key(x));
    }
  }

  lemma {:induction false} InsertAfterSorted<T>(key: T -> Key, x: T, s: seq<T>)
    requires Sorted(key, s)
    ensures Sorted(key, InsertAfter(key, x, s))
  {
    if |s| > 0 {
      if KeyLt(key(x), key(s[0])) {
        BelowHead(key, x, s);
        ConsSorted(key, x, s);
      } else {
        var rest := s[1..];
        assert Sorted(key, rest);
        InsertAfterSorted(key, x, rest);
        assert AtMostAll(key, s[0], rest);
        KeyLtTrichotomy(key(x), key(s[0]));
        KeyLeIsLtOrEq(key(s[0]), key(x));
        InsertAfterAtMost(key, s[0], x, rest);
        ConsSorted(key, s[0], InsertAfter(key, x, rest));
      }
    }
  }

  /** Inserting `x` adds it after the entries of `s` that share its key. */
  lemma {:induction false} InsertAfterStable<T>(key: T -> Key, x: T, s: seq<T>, k: Key)
    requires Sorted(key, s)
    ensures WithKey(key, InsertAfter(key, x, s), k) == WithKey(key, s, k) + WithKey(key, [x], k)
  {
    if |s| == 0 {
    } else if KeyLt(key(x), key(s[0])) {
      StableWhenFirst(key, x, s, k);
    } else {
      assert Sorted(key, s[1..]);
      InsertAfterStable(key, x, s[1..], k);
      StableWhenLater(key, x, s, k);
    }
  }

  lemma {:induction false} StableWhenFirst<T>(key: T -> Key, x: T, s: seq<T>, k: Key)
    requires Sorted(key, s) && |s| > 0 && KeyLt(key(x), key(s[0]))
    ensures WithKey(key, [x] + s, k) == WithKey(key, s, k) + WithKey(key, [x], k)
  {
    var p := KeyIs(key, k);
    WhereAppend([x], s, p);
    if k == key(x) {
      BelowHead(key, x, s);
      WhereNone(s, p);
    } else {
      assert Where([x], p) == [];
    }
  }

  lemma {:induction false} StableWhenLater<T>(key: T -> Key, x: T, s: seq<T>, k: Key)
    requires |s| > 0
    requires WithKey(key, InsertAfter(key, x, s[1..]), k) == WithKey(key, s[1..], k) + WithKey(key, [x], k)
    ensures WithKey(key, [s[0]] + InsertAfter(key, x, s[1..]), k) == WithKey(key, s, k) + WithKey(key, [x], k)
  {
    ConsWhere(s[0], InsertAfter(key, x, s[1..]), s[1..], WithKey(key, [x], k), KeyIs(key, k));
    assert [s[0]] + s[1..] == s;
  }

  lemma {:induction false} ConsWhere<T>(a: T, u: seq<T>, v: seq<T>, w: seq<T>, p: T -> bool)
    requires Where(u, p) == Where(v, p) + w
    ensures Where([a] + u, p) == Where([a] + v, p) + w
  {
    WhereAppend([a], u, p);
    WhereAppend([a], v, p);
  }

  /** Stable insertion sort: each entry in turn is inserted after the
      entries already placed whose key is not greater. */
  function StableSort<T>(key: T -> Key, s: seq<T>): seq<T> {
    if |s| == 0 then []
    else InsertAfter(key, s[|s| - 1], StableSort(key, s[..|s| - 1]))
  }

  lemma {:induction false} StableSortSpec<T>(key: T -> Key, s: seq<T>)
    ensures Sorted(key, StableSort(key, s))
    ensures multiset(StableSort(key, s)) == multiset(s)
    ensures forall k :: WithKey(key, StableSort(key, s), k) == WithKey(key, s, k)
  {
    if |s| > 0 {
      var init := s[..|s| - 1];
      var last := s[|s| - 1];
      assert s == init + [last];
      StableSortSpec(key, init);
      InsertAfterSorted(key, last, StableSort(key, init));
      InsertAfterPermutes(key, last, StableSort(key, init));
      forall k
        ensures WithKey(key, StableSort(key, s), k) == WithKey(key, s, k)
      {
        InsertAfterStable(key, last, StableSort(key, init), k);
        WhereAppend(init, [last], KeyIs(key, k));
      }
    }
  }

  /** The sorted view: a permutation of the input, ordered by the branch's
      key, in which rows with equal keys keep their input order. */
  function SortRows(b: Bindings, rows: seq<Row>): (r: seq<Row>)
    ensures multiset(r) == multiset(rows)
    ensures Sorted(KeyFn(ModeOf(b)), r)
    ensures forall k :: WithKey(KeyFn(ModeOf(b)), r, k) == WithKey(KeyFn(ModeOf(b)), rows, k)
    ensures ModeOf(b) == Unsorted ==> r == rows
  {
    var mode := ModeOf(b);
    if mode == Unsorted then
      assert forall i :: 0 <= i < |rows| ==> KeyFn(mode)(rows[i]) == KeyOf(Unsorted, rows[i]) == [];
      rows
    else
      StableSortSpec(KeyFn(mode), rows);
      StableSort(KeyFn(mode), rows)
  }

  /** Within one academic year, a Fall row never follows a Spring row. */
  lemma {:induction false} FallBeforeSpring(b: Bindings, rows: seq<Row>, i: int, j: int)
    requires ModeOf(b) == BySeason
    requires 0 <= i < j < |SortRows(b, rows)|
    requires SortRows(b, rows)[i].academicYear == SortRows(b, rows)[j].academicYear
    requires SortRows(b, rows)[j].semester.Some? && SeasonRank(SortRows(b, rows)[j].semester.value) == Some(0)
    ensures !(SortRows(b, rows)[i].semester.Some? && SeasonRank(SortRows(b, rows)[i].semester.value) == Some(1))
  {
    var r := SortRows(b, rows);
    var ki := KeyOf(BySeason, r[i]);
    var kj := KeyOf(BySeason, r[j]);
    assert KeyLe(ki, kj) by {
      assert KeyFn(BySeason)(r[i]) == ki && KeyFn(BySeason)(r[j]) == kj;
    }
    if r[i].semester.Some? && SeasonRank(r[i].semester.value) == Some(1) {
      assert ki[0] == kj[0] && kj[1] == Num(0) && ki[1] == Num(1);
      assert KeyLt(kj[1..], ki[1..]);
      assert KeyLt(kj, ki);
      assert false;
    }
  }

  /** Academic years come out in ascending text order, missing years last. */
  lemma {:induction false} YearsAscend(b: Bindings, rows: seq<Row>, i: int, j: int)
    requires ModeOf(b) == BySeason
    requires 0 <= i < j < |SortRows(b, rows)|
    ensures SortRows(b, rows)[i].academicYear.None? ==> SortRows(b, rows)[j].academicYear.None?
    ensures SortRows(b, rows)[i].academicYear.Some? && SortRows(b, rows)[j].academicYear.Some? ==>
            !StrLt(SortRows(b, rows)[j].academicYear.value, SortRows(b, rows)[i].academicYear.value)
  {
    var r := SortRows(b, rows);
    var ki := KeyOf(BySeason, r[i]);
    var kj := KeyOf(BySeason, r[j]);
    assert KeyLe(ki, kj) by {
      assert KeyFn(BySeason)(r[i]) == ki && KeyFn(BySeason)(r[j]) == kj;
    }
  }

  /** The date branches order rows by display text: a missing date ("")
      comes before every dated row, and April 2024 comes before December
      2023. */
  lemma {:induction false} DisplayDateOrderIsTextual(x: Row, y: Row, z: Row)
    requires x.date.None?
    requires y.date == Some(Date(2024, 4, 1)) && z.date == Some(Date(2023, 12, 1))
    ensures KeyLt(KeyOf(ByDate, x), KeyOf(ByDate, y))
    ensures KeyLt(KeyOf(ByDate, y), KeyOf(ByDate, z))
  {
    assert FormatDate(y.date)[0] == 'A';
    assert FormatDate(z.date)[0] == 'D';
  }

  /** A date as a sort-key cell: its day number, or NaN when missing, so
      missing dates sort last as the datetime column would. */
  function DatePart(d: Option<CalendarDate>): Part {
    match d
    case Some(v) => Num(DayNumber(v))
    case None => Nan
  }

  /** The key the date branches evidently intend: the parsed date rather
      than its display text. The other branches are unchanged. */
  function IntendedKeyOf(mode: SortMode, r: Row): Key {
    match mode
    case ByDateConcert => [DatePart(r.date), NumPart(r.concert), NumPart(r.index)]
    case ByDate => [DatePart(r.date)]
    case _ => KeyOf(mode, r)
  }

  function IntendedKeyFn(mode: SortMode): Row -> Key {
    (x: Row) => IntendedKeyOf(mode, x)
  }

  /** The sort block with the chronological date key. */
  function IntendedSortRows(b: Bindings, rows: seq<Row>): (r: seq<Row>)
    ensures multiset(r) == multiset(rows)
    ensures Sorted(IntendedKeyFn(ModeOf(b)), r)
    ensures forall k :: WithKey(IntendedKeyFn(ModeOf(b)), r, k) == WithKey(IntendedKeyFn(ModeOf(b)), rows, k)
    ensures ModeOf(b) == Unsorted ==> r == rows
  {
    var mode := ModeOf(b);
    if mode == Unsorted then
      assert forall i :: 0 <= i < |rows| ==> IntendedKeyFn(mode)(rows[i]) == KeyOf(Unsorted, rows[i]) == [];
      rows
    else
      StableSortSpec(IntendedKeyFn(mode), rows);
      StableSort(IntendedKeyFn(mode), rows)
  }

  /** Under the intended key the date branches list rows chronologically,
      with undated rows after every dated one. */
  lemma {:induction false} IntendedDatesChronological(b: Bindings, rows: seq<Row>, i: int, j: int)
    requires ModeOf(b) == ByDate || ModeOf(b) == ByDateConcert
    requires 0 <= i < j < |IntendedSortRows(b, rows)|
    ensures IntendedSortRows(b, rows)[i].date.None? ==> IntendedSortRows(b, rows)[j].date.None?
    ensures IntendedSortRows(b, rows)[i].date.Some? && IntendedSortRows(b, rows)[j].date.Some? ==>
            !DateBefore(IntendedSortRows(b, rows)[j].date.value, IntendedSortRows(b, rows)[i].date.value)
  {
    var mode := ModeOf(b);
    var r := IntendedSortRows(b, rows);
    var ki := IntendedKeyOf(mode, r[i]);
    var kj := IntendedKeyOf(mode, r[j]);
    assert KeyLe(ki, kj) by {
      assert IntendedKeyFn(mode)(r[i]) == ki && IntendedKeyFn(mode)(r[j]) == kj;
    }
    if r[j].date.Some? && r[i].date.Some? {
      DayNumberOrder(r[j].date.value, r[i].date.value);
    }
    if r[i].date.None? && r[j].date.Some? {
      assert false;
    }
    if r[j].date.Some? && r[i].date.Some? && DateBefore(r[j].date.value, r[i].date.value) {
      assert false;
    }
  }

  /** Sorting two rows whose keys are strictly ordered puts them in key
      order, whatever their input order. */
  lemma {:induction false} SortTwo(key: Row -> Key, lo: Row, hi: Row)
    requires KeyLt(key(lo), key(hi))
    ensures StableSort(key, [hi, lo]) == [lo, hi]
    ensures StableSort(key, [lo, hi]) == [lo, hi]
  {
    KeyLtAsymmetric(key(lo), key(hi));
    assert [hi, lo][..1] == [hi];
    assert [lo, hi][..1] == [lo];
    assert StableSort(key, [hi]) == InsertAfter(key, hi, []) == [hi];
    assert StableSort(key, [lo]) == InsertAfter(key, lo, []) == [lo];
  }

  /** The sort as written puts a December 2023 concert after an April 2024
      one. */
  lemma {:induction false} TextualDateSortMisorders(b: Bindings, y: Row, z: Row)
    requires ModeOf(b) == ByDate
    requires y.date == Some(Date(2024, 4, 1)) && z.date == Some(Date(2023, 12, 1))
    ensures DateBefore(z.date.value, y.date.value)
    ensures SortRows(b, [z, y]) == [y, z]
  {
    DisplayDateOrderIsTextual(y.(date := None), y, z);
    SortTwo(KeyFn(ByDate), y, z);
  }

  /** The intended key puts the December 2023 concert first. */
  lemma {:induction false} IntendedDateSortOrders(b: Bindings, y: Row, z: Row)
    requires ModeOf(b) == ByDate
    requires y.date == Some(Date(2024, 4, 1)) && z.date == Some(Date(2023, 12, 1))
    ensures IntendedSortRows(b, [y, z]) == [z, y]
  {
    assert DayNumber(z.date.value) < DayNumber(y.date.value);
    SortTwo(IntendedKeyFn(ByDate), z, y);
  }
}

=== FILE: summary.dfy ===
/** The filter summary shown above every chart (app.py:169-178): each
    selection list joined with ", ", or "N/A" when nothing is selected;
    a dropdown choice, or "N/A" for "All". */
module Summary {
  import opened Text

  /** A selection list as the summary shows it: the labels separated by
      ", ", or "N/A" when nothing is selected. */
  function SummaryValue(xs: seq<string>): (r: string)
    ensures |xs| == 0 ==> r == "N/A"
    ensures |xs| > 0 && (forall i :: 0 <= i < |xs| ==> NoComma(xs[i])) ==> Split(r) == xs
    ensures |xs| > 0 ==> xs[0] <= r
    ensures forall i :: 0 <= i < |xs| ==> Contains(r, xs[i])
    ensures |xs| == 1 ==> r == xs[0]
    ensures |xs| > 0 && xs != ["N/A"] ==> r != "N/A"
  {
    if |xs| == 0 then "N/A"
    else
      JoinLabels(xs);
      assert |xs| >= 2 ==> Join(xs)[|xs[0]|] == ',' && "N/A" != Join(xs);
      assert |xs| == 1 ==> xs == [xs[0]];
      if forall i :: 0 <= i < |xs| ==> NoComma(xs[i]) then
        SplitJoin(xs);
        Join(xs)
      else Join(xs)
  }

  /** With labels free of commas and never "N/A" themselves, the summary
      reads "N/A" exactly when nothing is selected. */
  lemma SummaryNAIffNothingSelected(xs: seq<string>)
    requires forall i :: 0 <= i < |xs| ==> NoComma(xs[i]) && xs[i] != "N/A"
    ensures SummaryValue(xs) == "N/A" <==> |xs| == 0
  {
    assert NoComma("N/A") by {
      assert forall i :: 0 <= i < 3 ==> "N/A"[i] != ',';
    }
    SplitJoin(["N/A"]);
  }

  /** A dropdown choice as the summary shows it: the choice itself, or
      "N/A" when it is empty or the catch-all "All". */
  function ChoiceValue(choice: string): (r: string)
    ensures r == "N/A" <==> choice in {"", "All", "N/A"}
    ensures r != "N/A" ==> r == choice
  {
    if choice != "" && choice != "All" then choice else "N/A"
  }
}

=== FILE: text.dfy ===
/** String helpers with Python's semantics: substring test,
    stripping and lower-casing, joining labels with ", ", and the string
    ordering used by pandas when it sorts a text column. */
module Text {

  // ---------------------------------------------------------------------
  // Substring test
  // ---------------------------------------------------------------------

  /** Python's substring test: some slice of `hay` is `needle`. */
  predicate Contains(hay: string, needle: string)
    decreases |hay|
  {
    needle <= hay || (|hay| > 0 && Contains(hay[1..], needle))
  }

  /** `needle` occurs in `hay` starting at position `i`. */
  predicate OccursAt(hay: string, needle: string, i: int) {
    0 <= i <= |hay| - |needle| && hay[i..i + |needle|] == needle
  }

  /** `Contains` agrees with the positional definition of a substring. */
  lemma {:induction false} ContainsIffOccurs(hay: string, needle: string)
    ensures Contains(hay, needle) <==> exists i :: OccursAt(hay, needle, i)
    decreases |hay|
  {
    if needle <= hay {
      assert OccursAt(hay, needle, 0);
    } else if |hay| > 0 {
      ContainsIffOccurs(hay[1..], needle);
      if Contains(hay[1..], needle) {
        var i :| OccursAt(hay[1..], needle, i);
        assert hay[i + 1..i + 1 + |needle|] == hay[1..][i..i + |needle|];
        assert OccursAt(hay, needle, i + 1);
      }
      assert !OccursAt(hay, needle, 0);
      if exists i :: OccursAt(hay, needle, i) {
        var i :| OccursAt(hay, needle, i);
        assert 1 <= i && i + |needle| <= |hay|;
        assert hay[1..][i - 1..i - 1 + |needle|] == hay[i..i + |needle|];
        assert OccursAt(hay[1..], needle, i - 1);
      }
    } else {
      assert forall i :: !OccursAt(hay, needle, i);
    }
  }

  /** Every keyword occurs in `hay`. */
  predicate ContainsAll(hay: string, keywords: seq<string>) {
    forall i :: 0 <= i < |keywords| ==> Contains(hay, keywords[i])
  }

  /** `hay` begins with `prefix`. */
  predicate StartsWith(hay: string, prefix: string) {
    prefix <= hay
  }

  // ---------------------------------------------------------------------
  // Case and whitespace normalisation
  // ---------------------------------------------------------------------

  /** Whitespace characters removed by `str.strip` (the ASCII ones). */
  predicate IsSpace(c: char) {
    c == ' ' || (9 <= c as int <= 13) || (28 <= c as int <= 31)
  }

  predicate IsUpper(c: char) {
    'A' <= c <= 'Z'
  }

  function LowerChar(c: char): char {
    if IsUpper(c) then (c as int + 32) as char else c
  }

  /** `str.lower` on the ASCII letters. */
  function Lower(s: string): (r: string)
    ensures |r| == |s|
    ensures forall i :: 0 <= i < |s| ==> r[i] == LowerChar(s[i])
  {
    seq(|s|, i requires 0 <= i < |s| => LowerChar(s[i]))
  }

  /** `str.lstrip()`: the longest suffix that does not start with whitespace. */
  function TrimStart(s: string): (r: string)
    ensures |r| <= |s| && r == s[|s| - |r|..]
    ensures forall i :: 0 <= i < |s| - |r| ==> IsSpace(s[i])
    ensures |r| > 0 ==> !IsSpace(r[0])
  {
    if |s| > 0 && IsSpace(s[0]) then TrimStart(s[1..]) else s
  }

  /** `str.rstrip()`: the longest prefix that does not end with whitespace. */
  function TrimEnd(s: string): (r: string)
    ensures |r| <= |s| && r == s[..|r|]
    ensures forall i :: |r| <= i < |s| ==> IsSpace(s[i])
    ensures |r| > 0 ==> !IsSpace(r[|r| - 1])
  {
    if |s| > 0 && IsSpace(s[|s| - 1]) then TrimEnd(s[..|s| - 1]) else s
  }

  /** Whitespace removed from both ends. */
  function Strip(s: string): string {
    TrimEnd(TrimStart(s))
  }

  /** A string with no whitespace at either end. */
  predicate IsStripped(s: string) {
    |s| > 0 ==> !IsSpace(s[0]) && !IsSpace(s[|s| - 1])
  }

  /** The result of `Strip` has no whitespace at either end, and stripping
      a string that has none leaves it unchanged. */
  lemma StripSpec(s: string)
    ensures IsStripped(Strip(s))
    ensures IsStripped(s) ==> Strip(s) == s
  {
    var t := TrimStart(s);
    var r := TrimEnd(t);
    if |r| > 0 {
      assert r[0] == t[0];
    }
  }

  /** Lower-casing keeps both ends free of whitespace. */
  lemma LowerKeepsStripped(s: string)
    requires IsStripped(s)
    ensures IsStripped(Lower(s))
  {
  }

  /** Lower-casing twice is lower-casing once. */
  lemma LowerIdempotent(s: string)
    ensures Lower(Lower(s)) == Lower(s)
  {
  }

  // ---------------------------------------------------------------------
  // Joining and splitting lists of labels
  // ---------------------------------------------------------------------

  const Separator: string := ", "

  /** The labels in order, separated by ", ". */
  function Join(xs: seq<string>): string {
    if |xs| == 0 then ""
    else if |xs| == 1 then xs[0]
    else xs[0] + Separator + Join(xs[1..])
  }

  /** A substring of `b` is a substring of anything ending in `b`. */
  lemma {:induction false} ContainsAfter(a: string, b: string, needle: string)
    requires Contains(b, needle)
    ensures Contains(a + b, needle)
    decreases |a|
  {
    if |a| > 0 {
      assert (a + b)[1..] == a[1..] + b;
      ContainsAfter(a[1..], b, needle);
    } else {
      assert a + b == b;
    }
  }

  /** The joined text starts with the first label, has a comma right after
      it when there are more, and contains every label. */
  lemma {:induction false} JoinLabels(xs: seq<string>)
    requires |xs| > 0
    ensures xs[0] <= Join(xs)
    ensures |xs| >= 2 ==> |Join(xs)| >= |xs[0]| + 2 && Join(xs)[|xs[0]|] == ','
    ensures forall i :: 0 <= i < |xs| ==> Contains(Join(xs), xs[i])
  {
    if |xs| >= 2 {
      var rest := Join(xs[1..]);
      assert Join(xs) == xs[0] + (Separator + rest);
      JoinLabels(xs[1..]);
      forall i | 1 <= i < |xs|
        ensures Contains(Join(xs), xs[i])
      {
        assert xs[i] == xs[1..][i - 1];
        ContainsAfter(Separator, rest, xs[i]);
        ContainsAfter(xs[0], Separator + rest, xs[i]);
      }
    }
  }

  /** Index of the first comma in `s`, or `|s|` when there is none. */
  function FirstComma(s: string): (r: nat)
    ensures r <= |s|
    ensures forall i :: 0 <= i < r ==> s[i] != ','
    ensures r < |s| ==> s[r] == ','
  {
    if |s| == 0 then 0
    else if s[0] == ',' then 0
    else 1 + FirstComma(s[1..])
  }

  /** Splits a joined label list back into its labels: text up to each
      comma, skipping the comma and the following character. */
  function Split(s: string): seq<string>
    decreases |s|
  {
    var k := FirstComma(s);
    if k + 2 <= |s| then [s[..k]] + Split(s[k + 2..]) else [s]
  }

  predicate NoComma(s: string) {
    forall i :: 0 <= i < |s| ==> s[i] != ','
  }

  /** Joining labels that contain no comma can be undone by `Split`. */
  lemma {:induction false} SplitJoin(xs: seq<string>)
    requires |xs| > 0
    requires forall i :: 0 <= i < |xs| ==> NoComma(xs[i])
    ensures Split(Join(xs)) == xs
    decreases |xs|
  {
    if |xs| == 1 {
      assert FirstComma(xs[0]) == |xs[0]|;
    } else {
      var s := Join(xs);
      var rest := Join(xs[1..]);
      assert s == xs[0] + (Separator + rest);
      FirstCommaAfter(xs[0], Separator + rest);
      assert s[..|xs[0]|] == xs[0];
      assert s[|xs[0]| + 2..] == rest;
      assert Split(s) == [xs[0]] + Split(rest);
      SplitJoin(xs[1..]);
      assert xs == [xs[0]] + xs[1..];
    }
  }

  lemma FirstCommaAfter(a: string, b: string)
    requires NoComma(a)
    requires |b| > 0 && b[0] == ','
    ensures FirstComma(a + b) == |a|
  {
    assert (a + b)[|a|] == ',';
    assert forall i :: 0 <= i < |a| ==> (a + b)[i] == a[i];
  }

  // ---------------------------------------------------------------------
  // Python's string ordering
  // ---------------------------------------------------------------------

  /** Python's string order: lexicographic by code point. */
  predicate StrLt(a: string, b: string)
    decreases |a|
  {
    if |a| == 0 then |b| > 0
    else if |b| == 0 then false
    else a[0] < b[0] || (a[0] == b[0] && StrLt(a[1..], b[1..]))
  }

  lemma {:induction false} StrLtIrreflexive(a: string)
    ensures !StrLt(a, a)
    decreases |a|
  {
    if |a| > 0 {
      StrLtIrreflexive(a[1..]);
    }
  }

  /** Any two strings are equal or ordered one way or the other. */
  lemma {:induction false} StrLtTrichotomy(a: string, b: string)
    ensures a == b || StrLt(a, b) || StrLt(b, a)
    decreases |a|
  {
    if |a| > 0 && |b| > 0 && a[0] == b[0] {
      StrLtTrichotomy(a[1..], b[1..]);
      if a[1..] == b[1..] {
        assert a == [a[0]] + a[1..] && b == [b[0]] + b[1..];
      }
    }
  }

  lemma {:induction false} StrLtAsymmetric(a: string, b: string)
    ensures !(StrLt(a, b) && StrLt(b, a))
    decreases |a|
  {
    if |a| > 0 && |b| > 0 && a[0] == b[0] {
      StrLtAsymmetric(a[1..], b[1..]);
    }
  }

  lemma {:induction false} StrLtTransitive(a: string, b: string, c: string)
    requires StrLt(a, b) && StrLt(b, c)
    ensures StrLt(a, c)
    decreases |a|
  {
    if |a| > 0 && a[0] == b[0] && b[0] == c[0] {
      StrLtTransitive(a[1..], b[1..], c[1..]);
    }
  }
}

=== FILE: wrappers.dfy ===
/** The optional value used for cells that pandas holds as NaN and for
    logical fields whose column was not found. */
module Wrappers {

  datatype Option<+T> = None | Some(value: T) {

    /** The wrapped value, or `default` when there is none. */
    function GetOr(default: T): T {
      match this
      case Some(v) => v
      case None => default
    }
  }
}
